=== FILE: README.md ===
# Asset Studio Next, modelled in Dafny

Asset Studio Next is a browser-based image studio. A user loads an image and can:

- crop, rotate, flip and resize it;
- pick an output preset, optionally with a wallpaper layout;
- export a single file, or a ZIP archive with one file per selected preset.

This project models the deterministic logic behind those actions, plus two
server-side guards used by the API routes:

- **Export pipeline** (`export.dfy`, module `Export`):
  - the hand-built PNG-in-ICO container;
  - how a format id and quality are routed to the canvas encoder;
  - the bisection search for a quality that meets a target file size;
  - the export filename;
  - the single and batch export control flow.

  The canvas encoder and the compositor are function parameters.
- **Upload validation** (`file_validation.dfy`, module `FileValidation`):
  - the ordered chain of size, blocked-extension, MIME allow-list and file-signature checks;
  - the regex pipeline that sanitises filenames.
- **Rate limiter** (`rate_limit.dfy`, module `RateLimit`):
  - the fixed-window limiter, as a pure function over its map with the clock reading as a parameter;
  - the periodic sweep of expired windows;
  - the choice of the client identifier from proxy headers.
- **Canvas geometry** (`transform.dfy`, module `Transform`):
  - the source rectangle;
  - the quarter-turn side swap;
  - the "zero resize side means keep" rule;
  - the centred draw rectangle, with a proof that it lands exactly on the canvas corners;
  - the down-scaling of the preview.
- **Catalogs** (`presets.dfy`, module `Presets`):
  - the six export formats;
  - the resolution presets;
  - the size and dimension labels.
- **Settings records and reducers**:
  - `types.dfy`: the tool settings and their defaults;
  - `studio_settings.dfy`: the aggregate studio settings and the preset catalog lookup;
  - `controls.dfy`: the tools panel;
  - `output_controls.dfy`: the output panel;
  - `batch_controls.dfy`: the batch selection;
  - `studio_page.dfy`: the page-level image load, update, clear and crop transitions;
  - `preview_panel.dfy`: the size line of the preview panel.
- **Shared helpers** (`util.dfy`): JavaScript `Math.round`, the truncating `%`, decimal rendering of integers, and bytes.

Every module except `Util` (shared helpers) and `Studio` (the aggregate settings record and the catalog lookup, whose source files are not part of this model) corresponds to one source file. Every handler is a pure function from the old state to the new one.

## Model

| member | source | states |
|---|---|---|
| Util.Round | src/lib/image/transform.ts:42-45 | `Math.round` gives the integer within half a unit of its argument, rounding halves up |
| Util.JsRem | src/components/studio/ControlsPanel.tsx:119-120 | JavaScript `%` agrees with the mathematical remainder on non-negative dividends, and lies in (-b, 0] for negative ones |
| Util.DecimalRoundTrip | src/lib/image/presets.ts:47 | reading the decimal rendering of a natural number back gives the number |
| Util.IntToStringInjective | src/lib/image/presets.ts:47 | distinct integers render as distinct decimal strings |
| Util.FindById | src/lib/image/export.ts:43 | `find` by id: a hit is an entry of the sequence carrying the id, and it misses exactly when no entry carries it |
| Util.FindByIdFirst | src/components/studio/ControlsPanel.tsx:152 | the entry found is the first one carrying the id |
| Types.CreateDefaultSettings | src/lib/image/types.ts:45-57 | defaults are upright and unflipped, with the aspect lock on, quality 90, PNG and no crop; the resize target is the image's size, or 1920×1080 without an image |
| Studio.GetPresetById | src/lib/image/export.ts:182 | a hit is a catalog entry with the asked id; the lookup misses exactly when no entry has that id |
| Presets.FindFormat | src/lib/image/export.ts:43 | a hit is an entry of the format table with the asked id; a miss means no entry has it |
| Presets.FormatTableShape | src/lib/image/presets.ts:2-9 | six formats with pairwise distinct ids; each extension is "." + id; quality is supported exactly for jpg, webp and avif |
| Presets.FindFormatTable | src/lib/image/presets.ts:3-8 | lookup succeeds exactly for png, jpg, webp, ico, bmp and avif, and gives each its MIME type |
| Presets.FindResolutionPreset | src/components/studio/ControlsPanel.tsx:152 | a hit is a resolution preset with the asked id; a miss means none has it |
| Presets.ResolutionTableShape | src/lib/image/presets.ts:21-35 | resolution preset ids are pairwise distinct, all sides are positive, and no preset is called "original" |
| Presets.FoundryPresetsAreGridSized | src/lib/image/presets.ts:29-34 | every `foundry-CxR` preset measures 100·C by 100·R pixels |
| Presets.FormatFileSize | src/lib/image/presets.ts:39 | the label is "0 B" exactly for zero bytes |
| Presets.FormatDimensionsInjective | src/lib/image/presets.ts:46-47 | the width and height can be read back from the label: different pairs give different labels |
| Transform.SourceRect | src/lib/image/transform.ts:40-46 | without a crop, the whole image from (0, 0); with one, each crop coordinate rounded |
| Transform.PostRotation | src/lib/image/transform.ts:49-51 | 90 and 270 exchange width and height; every other angle keeps them |
| Transform.PostRotationInvolution | src/lib/image/transform.ts:49-51 | applying the side swap twice gives back the original size |
| Transform.OutputSize | src/lib/image/transform.ts:54-55 | each side is the resize value when it is non-zero, and otherwise falls back to the post-rotation side on its own |
| Transform.DrawRect | src/lib/image/transform.ts:80-87 | the draw rectangle is centred on the origin and is the output size, with the sides exchanged for 90 and 270 |
| Transform.ApplyTransformations | src/lib/image/transform.ts:32-93 | the canvas is the output size of the rotated source rectangle; it carries the rotation, a flip factor of -1 or 1 per axis, and the centred draw rectangle |
| Transform.DrawRectCoversCanvas | src/lib/image/transform.ts:66-88 | for each quarter-turn angle and either flip, after flip, rotation and translation the draw rectangle's corners are exactly the canvas corners |
| Transform.CornersOfCentredRect | src/lib/image/transform.ts:69-87 | a plan whose draw rectangle is centred, at any quarter-turn angle, maps its corners onto the canvas corners |
| Transform.PreviewScale | src/lib/image/transform.ts:118 | the preview factor is at most 1, and exactly 1 when the longest side already fits the bound |
| Transform.CreatePreviewCanvas | src/lib/image/transform.ts:98-128 | only the resize target changes: it becomes the post-rotation size scaled and rounded, and the canvas is what `applyTransformations` builds from that |
| Transform.ScaledSideAtMost | src/lib/image/transform.ts:123-124 | rounding a side scaled by a factor of at most 1 never exceeds the side |
| Transform.PreviewNeverUpscales | src/lib/image/transform.ts:113-128 | each preview side is at most the matching post-rotation side |
| Transform.PreviewSizeAtMostSource | src/lib/image/transform.ts:113-125 | the preview canvas size is at most the post-rotation size, side by side |
| Transform.ScaledSideWithinBound | src/lib/image/transform.ts:118-124 | a side no longer than the longest side, once scaled and rounded, is at most round(maxDimension) |
| Transform.PreviewWithinBound | src/lib/image/transform.ts:118-128 | when neither scaled side rounds to zero, the preview's longest side is at most round(maxDimension) |
| Transform.PreviewSizeWithinBound | src/lib/image/transform.ts:118-125 | the same bound, stated on the post-rotation size |
| Transform.PreviewFallbackExceedsBound | src/lib/image/transform.ts:123-124 | a 1000×10000000 image previewed under a bound of 800 gets a 1000-pixel-wide preview: a side that rounds to zero falls back to its full length |
| Controls.Update | src/components/studio/ControlsPanel.tsx:61-63 | each field the patch sets takes the patch's value, and every other field keeps its old value |
| Controls.UpdateNothing | src/components/studio/ControlsPanel.tsx:61-63 | an empty patch changes nothing |
| Controls.RotateCW | src/components/studio/ControlsPanel.tsx:119 | only the rotation changes; it becomes (r + 90) % 360 and stays among 0, 90, 180 and 270 |
| Controls.RotateCCW | src/components/studio/ControlsPanel.tsx:120 | only the rotation changes; it becomes (r + 270) % 360 and stays among the four angles |
| Controls.RotateCCWUndoesCW | src/components/studio/ControlsPanel.tsx:119-120 | on the four angles, each rotate button undoes the other |
| Controls.FourTurnsIdentity | src/components/studio/ControlsPanel.tsx:119 | four clockwise turns come back to the start |
| Controls.RotateRoundTripNormalises | src/components/studio/ControlsPanel.tsx:119-120 | from any non-negative angle, one button then the other leaves the angle modulo 360 |
| Controls.ToggleFlipH | src/components/studio/ControlsPanel.tsx:121 | negates flipH and changes nothing else |
| Controls.ToggleFlipV | src/components/studio/ControlsPanel.tsx:122 | negates flipV and changes nothing else |
| Controls.FlipsAreInvolutions | src/components/studio/ControlsPanel.tsx:121-122 | toggling a flip twice restores the settings |
| Controls.HandleResizeWidth | src/components/studio/ControlsPanel.tsx:125-133 | the width becomes `parseInt || 0`; with the aspect lock on and an image, the height is within half a pixel of width·imgH/imgW; otherwise the height is unchanged; nothing outside the resize record changes |
| Controls.HandleResizeHeight | src/components/studio/ControlsPanel.tsx:135-143 | the mirror image: with the lock on and an image, the width is within half a pixel of height·imgW/imgH |
| Controls.AspectLockRestoresImageSize | src/components/studio/ControlsPanel.tsx:125-143 | with the aspect lock on, typing the image's own width gives back its height, and the reverse |
| Controls.HandlePresetSelect | src/components/studio/ControlsPanel.tsx:145-158 | "original" with an image sets the image size; a known preset sets its size; "original" without an image, or an unknown id, changes nothing; the aspect lock is kept |
| Controls.FormatSupportsQuality | src/components/studio/ControlsPanel.tsx:160 | true exactly for the formats whose table entry supports quality; false for unknown formats |
| OutputControls.HandleDimensionChange | src/components/studio/OutputControls.tsx:52-90 | a missing or non-positive value changes nothing. Otherwise the preset becomes "custom" and the edited side takes the value. When following the image, the other side is within half a pixel of the image ratio; when not, the other side is unchanged. Only those output fields change |
| OutputControls.HandlePresetChange | src/components/studio/OutputControls.tsx:92-105 | a known preset sets the preset id and its size. A Foundry preset with wallpaper mode on also forces horizontal orientation, and no other case touches the wallpaper. An unknown id only sets "custom" |
| OutputControls.PresetChangeIdempotent | src/components/studio/OutputControls.tsx:92-105 | picking the same preset twice is the same as picking it once |
| OutputControls.DimensionChangeIdempotentUnlocked | src/components/studio/OutputControls.tsx:52-90 | when not following the image, typing the same value twice changes nothing the second time |
| BatchControls.Without | src/components/studio/BatchControls.tsx:34 | removes every occurrence of the id and keeps the multiplicity of every other id |
| BatchControls.WithoutAppend | src/components/studio/BatchControls.tsx:34 | the filter distributes over concatenation, so the survivors keep their relative order |
| BatchControls.WithoutKeepsDistinct | src/components/studio/BatchControls.tsx:34 | filtering a duplicate-free selection leaves it duplicate-free |
| BatchControls.WithoutAny | src/components/studio/BatchControls.tsx:45 | removes exactly the ids of the group and keeps the multiplicity of every other id |
| BatchControls.WithoutAnyAppend | src/components/studio/BatchControls.tsx:45 | the filter distributes over concatenation, so the ids kept stay in their original order |
| BatchControls.WithoutAnyOfOthers | src/components/studio/BatchControls.tsx:45 | a selection holding no id of the group is kept exactly |
| BatchControls.Dedup | src/components/studio/BatchControls.tsx:48 | `[...new Set(s)]` has the same elements as s and no duplicates |
| BatchControls.DedupFromAppend | src/components/studio/BatchControls.tsx:48 | deduplicating a concatenation handles the second part with the first part's ids already seen |
| BatchControls.DedupFromDistinct | src/components/studio/BatchControls.tsx:48 | a duplicate-free sequence with no id already seen comes out unchanged |
| BatchControls.TogglePreset | src/components/studio/BatchControls.tsx:31-37 | a selected id is removed and the other ids stay selected; an unselected id is appended at the end; only the selection changes |
| BatchControls.ToggleTwiceRestores | src/components/studio/BatchControls.tsx:31-37 | toggling an unselected id twice restores the selection exactly |
| BatchControls.ToggleKeepsDistinct | src/components/studio/BatchControls.tsx:31-37 | toggling keeps a duplicate-free selection duplicate-free |
| BatchControls.PresetIds | src/components/studio/BatchControls.tsx:40 | the ids of the group, position by position |
| BatchControls.SelectAll | src/components/studio/BatchControls.tsx:39-51 | a fully selected group is removed: the result is the selection filtered by the group's ids, so every other id stays, in order (WithoutAnyAppend). Otherwise the result has no duplicates and holds exactly the old selection plus the whole group. Only the selection changes |
| BatchControls.SelectAllKeepsOrder | src/components/studio/BatchControls.tsx:47-49 | adding a group keeps the old selection first, in first-occurrence order, followed by the group's new ids in group order; a duplicate-free selection is kept exactly |
| BatchControls.SelectAllKeepsDistinct | src/components/studio/BatchControls.tsx:39-51 | either branch keeps a duplicate-free selection duplicate-free |
| BatchControls.SelectAllTwice | src/components/studio/BatchControls.tsx:39-51 | pressing "select all" twice on a partly selected group leaves exactly the ids outside the group |
| StudioPage.HandleImageLoad | src/app/studio/page.tsx:35-38 | the loaded image is shown, with the defaults for that image |
| StudioPage.HandleImageUpdate | src/app/studio/page.tsx:40-51 | the new image is shown; the resize target becomes its size; the crop is cleared; everything else, the aspect lock included, is kept |
| StudioPage.HandleClear | src/app/studio/page.tsx:53-57 | back to no image with the image-less defaults |
| StudioPage.HandleCropComplete | src/app/studio/page.tsx:59-64 | records the crop and changes nothing else |
| StudioPage.LoadShowsImageSize | src/app/studio/page.tsx:35-38 | right after a load, the preview panel reports the image's own size |
| StudioPage.UpdateShowsImageSize | src/app/studio/page.tsx:40-51 | after an update, the panel reports the new image's size, whatever the rotation and crop were before |
| StudioPage.CropSetsCanvasSize | src/app/studio/page.tsx:59-64 | with no rotation and no resize target, a crop yields a canvas of the rounded crop size |
| PreviewPanel.OutputInfo | src/components/studio/PreviewPanel.tsx:30-46 | no size exactly when there is no image |
| PreviewPanel.OutputInfoMatchesCanvas | src/components/studio/PreviewPanel.tsx:30-46 | the reported size is exactly the size of the canvas `applyTransformations` builds |
| PreviewPanel.OutputInfoIgnoresCropOffset | src/components/studio/PreviewPanel.tsx:35-39 | moving the crop without resizing it does not change the report |
| PreviewPanel.OutputInfoRotation | src/components/studio/PreviewPanel.tsx:33-41 | with no resize target, 90 and 270 report the upright size swapped, and 180 reports it unchanged |
| Export.PngToIco | src/lib/image/export.ts:7-36 | the file is 22 bytes longer than the PNG. Header: reserved 0, type 1, one image. Entry: width, height, palette and reserved bytes 0; 1 plane and 32 bits per pixel as 16-bit little-endian; the PNG length modulo 2^32 and the data offset 22 as 32-bit little-endian. The PNG follows verbatim |
| Export.IcoRoundTrip | src/lib/image/export.ts:9-35 | reading the header back recovers exactly the PNG, for every PNG below 4 GiB |
| Export.IcoSizeWraps | src/lib/image/export.ts:30 | from 4 GiB on, the size field wraps, and a reader recovers only the first length-modulo-2^32 bytes |
| Export.RequestedMime | src/lib/image/export.ts:43-44 | the table's MIME type for each known format id, and image/png for an unknown one |
| Export.RequestedQuality | src/lib/image/export.ts:45-69 | a quality goes to the encoder exactly for the formats that support it, and it is quality/100 |
| Export.CanvasToBlob | src/lib/image/export.ts:38-72 | ICO asks the encoder for PNG with no quality: it resolves with the wrapped bytes when a Blob comes back, and otherwise never settles. Any other format resolves with the encoder's Blob for its MIME type and quality, and otherwise rejects |
| Export.QualityIgnoredWhenUnsupported | src/lib/image/export.ts:68-69 | for formats without a quality setting, the result does not depend on the quality |
| Export.OptimizeToTargetSize | src/lib/image/export.ts:74-109 | ICO: one encode at the start quality, reported as quality 100. Otherwise the Blob is the encoding at the reported quality, which lies in [10, start] for a start of at least 10. A quality above 10 fits the target. A fitting first encode keeps the start quality, and a different quality means the first encode did not fit. The search fails only on a failed encode, and never when every encode succeeds |
| Export.StripExtension | src/lib/image/export.ts:119 | the base is a prefix of the name; it ends exactly where a final `.xxx` without dots or slashes starts, or is the whole name when there is none |
| Export.ExtensionAtUnique | src/lib/image/export.ts:119 | at most one dot can start that final extension |
| Export.StripExtensionOf | src/lib/image/export.ts:119 | a base followed by a dot and an extension without dots or slashes strips back to the base |
| Export.ModeSuffix | src/lib/image/export.ts:123 | empty exactly when the mode is absent or empty; otherwise "_" followed by the mode |
| Export.SizeSuffix | src/lib/image/export.ts:124 | "_" followed by the preset id; without a preset, a suffix containing an "x" |
| Export.SizeSuffixInjective | src/lib/image/export.ts:124 | without a preset the suffix determines the width and the height: the first "x" ends the width |
| Export.ExtensionFor | src/lib/image/export.ts:120-121 | "." + id for the six table formats, ".png" otherwise; always a dot followed by at least one character, none of them a dot or slash, so the filename pattern strips exactly it |
| Export.StripAddedExtension | src/lib/image/export.ts:119 | appending such an extension to a stem and stripping it gives back the stem |
| Export.GenerateFilename | src/lib/image/export.ts:111-127 | the name starts with the original name minus its extension and ends with the format's extension |
| Export.FilenameExtensionRoundTrip | src/lib/image/export.ts:111-127 | stripping the extension of a generated name leaves exactly the base, the mode suffix and the size suffix |
| Export.PresetFilenamesDistinct | src/lib/image/export.ts:119-126 | two presets with different ids never share a generated name (same original name, format and mode) |
| Export.WallpaperMode | src/lib/image/export.ts:156 | the wallpaper mode is passed exactly in wallpaper mode |
| Export.ExportSingle | src/lib/image/export.ts:129-167 | a failure is an encode that gave no Blob. The result has the composed canvas's size, the requested format and the Blob's size, and a name built from the selected preset or the canvas size. Without a target size the Blob is the plain encoding; with one it is an encoding at some quality in the search range that fits whenever it is above 10 |
| Export.EntrySettings | src/lib/image/export.ts:186-194 | a batch entry's settings differ from the input only in the output preset id and custom size, which come from the preset |
| Export.EntryMatchesPresetChange | src/lib/image/export.ts:186-194 | a batch entry's settings are what picking its preset in the output panel gives, except for the wallpaper record |
| Export.KnownPositions | src/lib/image/export.ts:180-184 | exactly the positions before n whose id the catalog knows, in increasing order |
| Export.ProgressReports | src/lib/image/export.ts:219 | one report (i + 1, total) per visited position, in order |
| Export.NameDeterminesEntry | src/lib/image/export.ts:208-217 | entries filed under the same name come from the same preset id and have the same encoding, so a later write never changes an archived file |
| Export.ArchiveAdd | src/lib/image/export.ts:217 | filing entry n under its name keeps every earlier entry filed and adds no other file |
| Export.BatchSkip | src/lib/image/export.ts:184 | an id the catalog lacks changes neither the archive nor the progress reports |
| Export.BatchAdd | src/lib/image/export.ts:196-219 | an entry that encodes is filed under its generated name and reported as (n + 1, total) |
| Export.EntryAt | src/lib/image/export.ts:182-215 | the loop body's canvas, encoding and filename for position n are the entry the batch describes for n |
| Export.BatchStops | src/lib/image/export.ts:202-206 | an entry that fails to encode after all earlier ones encoded is the first failure |
| Export.ExportBatch | src/lib/image/export.ts:169-225 | on success, the archive holds exactly the known entries, each under its name. There is one progress report per known id, in order, with the total counting every id. A failure is the first entry that did not encode. When every entry encodes, the batch succeeds |
| FileValidation.ToLower | src/lib/security/fileValidation.ts:72 | same length; ASCII capitals become lower case, and every other character is kept |
| FileValidation.LowerExtension | src/lib/security/fileValidation.ts:72 | the lower-cased text from the last dot on. It is found exactly when the name has a dot and does not end in one |
| FileValidation.LowerExtensionOf | src/lib/security/fileValidation.ts:72 | whatever the stem, a final ".ext" is found and lower-cased |
| FileValidation.UpperCaseExtensionSeen | src/lib/security/fileValidation.ts:72-73 | ".SVG" is seen as the blocked ".svg" |
| FileValidation.ValidateMagicBytes | src/lib/security/fileValidation.ts:94-114 | an unsupported type is reported exactly for a MIME type without signatures. Otherwise the file is accepted exactly when one of the type's signatures is a prefix of the file |
| FileValidation.SignaturesFitWindow | src/lib/security/fileValidation.ts:24-35 | no signature is longer than the 16 bytes read |
| FileValidation.MatchIsPrefix | src/lib/security/fileValidation.ts:101-107 | matching the first 16 bytes is the same as being a prefix of the whole file |
| FileValidation.AllowedTypesHaveSignatures | src/lib/security/fileValidation.ts:12-35 | the allow-list and the signature table cover the same MIME types |
| FileValidation.ShortFileFails | src/lib/security/fileValidation.ts:105-113 | a file shorter than every signature of its type fails the signature check |
| FileValidation.ValidateFile | src/lib/security/fileValidation.ts:59-88 | each error is reported exactly when its check fails and every earlier check passed: size over 50 MiB, then empty, then blocked extension (naming it), then MIME type. A file is accepted exactly when all of those pass and a signature matches |
| FileValidation.PngUploadAccepted | src/lib/security/fileValidation.ts:25 | a PNG upload within the limit, starting with the PNG signature and named ".png", passes every check |
| FileValidation.ReplaceUnsafe | src/lib/security/fileValidation.ts:121 | same length; safe characters are kept and every other character becomes "_" |
| FileValidation.StripLeadingDots | src/lib/security/fileValidation.ts:123 | drops exactly the leading dots |
| FileValidation.CollapseDots | src/lib/security/fileValidation.ts:122 | no two dots in a row; never longer; empty only for empty input; starts with a dot exactly when the input does; introduces no new characters |
| FileValidation.Truncate | src/lib/security/fileValidation.ts:124 | a prefix of at most 255 characters, and the whole string when it is short enough |
| FileValidation.SanitizeFilename | src/lib/security/fileValidation.ts:119-125 | the result uses only `[A-Za-z0-9._-]`, has no "..", does not start with a dot, has at most 255 characters, and so contains no "/" |
| FileValidation.ReplaceUnsafeOfSafe | src/lib/security/fileValidation.ts:121 | a name of safe characters is left alone |
| FileValidation.CollapseDotsOfSingleDots | src/lib/security/fileValidation.ts:122 | a name without ".." is left alone |
| FileValidation.CollapseDotsPair | src/lib/security/fileValidation.ts:122 | a doubled dot anywhere collapses like a single dot; with the previous row this fixes the output on every input: each run of dots becomes one dot and every other character stays, in order |
| FileValidation.SanitizeFixpoint | src/lib/security/fileValidation.ts:119-125 | a name is its own sanitised form exactly when it already satisfies the sanitiser's promise |
| FileValidation.SanitizeIdempotent | src/lib/security/fileValidation.ts:119-125 | sanitising twice is sanitising once |
| FileValidation.TraversalNeutralised | src/lib/security/fileValidation.ts:119-125 | "../etc" becomes "_etc" |
| RateLimit.RateLimit | src/lib/security/rateLimit.ts:47-84 | only the caller's entry changes, and `limit` is always the maximum. A new or expired window (strictly after its reset time) restarts at count 1, succeeds, and leaves maximum − 1. In a live window the count goes up by one with the reset time kept; the request succeeds exactly when the count stays within the maximum, with 0 remaining on refusal |
| RateLimit.RequestsInWindow | src/lib/security/rateLimit.ts:66-83 | within one window, the k-th further request is the window's request n + k + 1 and succeeds exactly when that is within the maximum |
| RateLimit.FreshClientLimit | src/lib/security/rateLimit.ts:54-83 | a fresh client's requests 1 to N inside one window succeed and every later one is refused |
| RateLimit.EleventhRequestRefused | scripts/test-rate-limit.js:11-12 | with the limit of 10, the tenth request of a burst succeeds and the eleventh is refused |
| RateLimit.Sweep | src/lib/security/rateLimit.ts:14-21 | removes exactly the entries whose reset time has passed, and keeps the others unchanged |
| RateLimit.SweepInvisible | src/lib/security/rateLimit.ts:14-21 | a sweep before a request changes neither the answer nor the entry left for that client |
| RateLimit.TrimStart | src/lib/security/rateLimit.ts:93 | a suffix that does not start with whitespace; everything dropped is whitespace |
| RateLimit.TrimEnd | src/lib/security/rateLimit.ts:93 | a prefix that does not end with whitespace; everything dropped is whitespace |
| RateLimit.Trim | src/lib/security/rateLimit.ts:93 | a slice of the input with only whitespace on either side of it, and no whitespace at either end |
| RateLimit.TrimCharacterised | src/lib/security/rateLimit.ts:93 | a string is the trimmed input exactly when it is such a slice: the two clauses determine the result |
| RateLimit.FirstField | src/lib/security/rateLimit.ts:93 | the prefix before the first comma |
| RateLimit.FirstFieldOf | src/lib/security/rateLimit.ts:93 | a field without commas, followed by a comma or by nothing, is cut back out exactly |
| RateLimit.GetClientIp | src/lib/security/rateLimit.ts:90-103 | a non-empty `x-forwarded-for` decides, giving its first comma-separated field with the surrounding whitespace trimmed. Otherwise a non-empty `x-real-ip` is returned as it is, and otherwise "unknown" |
| RateLimit.ForwardedClientPicked | src/lib/security/rateLimit.ts:91-94 | with `x-forwarded-for` holding the client, with any whitespace around it, followed by nothing or by a comma and the proxies, the client is returned whatever `x-real-ip` says |
| RateLimit.ClientBeforeProxy | src/lib/security/rateLimit.ts:91-94 | `203.0.113.1, 10.0.0.1` gives `203.0.113.1` |

## Left out

- The canvas itself is not modelled. That covers the pixels, `drawImage`, the smoothing flags and the encoder's output. The encoder is a deterministic function parameter from MIME type and quality to an optional Blob.
- Transform.ApplyTransformations: a negative side, or one above 2^31 − 1, is kept as is in the plan. The width field's `min` does not stop a typed "-5", which `parseInt(...) || 0` keeps. The browser's canvas then falls back to its 300×150 default. The canvas attribute's reflection rules are not part of this model.
- PreviewPanel.OutputInfoMatchesCanvas: equates the panel's report with the planned canvas size. For a negative or oversized side, the browser's actual canvas is the 300×150 fallback instead.
- `composeCanvas` and `processImage` become one function parameter from the wallpaper and output settings to a canvas size and its encoder. They are imported from files that are not part of this model, so their behaviour is not invented.
- `getPresetById` is a lookup in a catalog passed as a parameter. The wallpaper, social and Foundry preset catalogs, `calculateTargetDimensions`, `generateAIExpansion` and `exportImage` are not part of this model.
- Of the studio settings, only the fields the modelled code reads are fields of the model. The rest are an abstract wallpaper-details type.
- JSZip is a map from file name to bytes. `zip.generateAsync`, the `setTimeout(0)` yield between entries, `downloadBlob` and `downloadFile` are browser I/O.
- `Date.now()` is the `now` parameter of the limiter. `setInterval` is left out: only the body of its callback is modelled, as `Sweep`.
- `parseInt` is not modelled. The handlers take the parse result, with `None` standing for NaN.
- Numbers are mathematical integers and reals, and nothing is claimed about IEEE doubles. `Math.round` is `floor(x + 0.5)`.
- `formatFileSize` is modelled only at zero. For other sizes it uses `Math.log` and `toFixed`.
- Lower-casing covers the ASCII letters only.
- A string is a sequence of Unicode scalar values, so a character stands for one UTF-16 code unit only below U+10000 and outside the surrogate range. Text with characters beyond U+FFFF, which JavaScript stores as surrogate pairs, is not modelled faithfully.
- FileValidation.SanitizeFilename: a character beyond U+FFFF becomes one underscore and counts as one character toward the 255 limit. The source replaces each half of its surrogate pair, giving two underscores, and its `slice(0, 255)` counts code units.
- Request headers are a map keyed by lower-case header name.
- `loadImage`, object URLs, `localStorage`, the background-removal and AI-expansion `fetch` calls, and the Ctrl+S handler are browser I/O.
- The preview debounce is browser timing.
- The API routes and the middleware are HTTP glue around the limiter and constant headers.
- The remaining pages and components are UI with no logic of their own to state.
- Export.ExportResult does not carry the quality the search settled on. The source computes it but never returns it either.
- Export.OptimizeToTargetSize: "at most the target" is stated only for qualities above 10. The fallback to quality 10 is taken even when it does not fit, as in the source.
- Transform.PreviewSizeWithinBound: carries the same exclusion as `Transform.PreviewWithinBound`, stated on the next line.
- Transform.PreviewWithinBound: requires that neither scaled side rounds to zero. The source sends a zero side down the "keep the post-rotation side" path, so a very thin image's preview can exceed the bound (`Transform.PreviewFallbackExceedsBound` exhibits one).
- Export.EntryMatchesPresetChange: a batch entry never forces the horizontal wallpaper orientation that picking a Foundry preset in the output panel does. The source's batch loop only rewrites the output record.
- FileValidation.MatchesSignature: requires the signature to fit inside the bytes read. The source compares against `undefined` past the end, which always fails, so the two are the same.

=== FILE: batch_controls.dfy ===
/** The batch-export selection (src/components/studio/BatchControls.tsx): the
    ordered list of preset ids that a batch export will render, edited one id
    at a time or a whole preset group at once. */
module BatchControls {
  import opened Studio

  // ---------------------------------------------------------------------
  // Sequence helpers with the semantics of the JavaScript array methods

  /** The elements of a sequence, as a set. */
  function Elems(s: seq<string>): set<string> {
    set x | x in s
  }

  predicate NoDuplicates(s: seq<string>) {
    forall i, j :: 0 <= i < j < |s| ==> s[i] != s[j]
  }

  /** `s.filter(x => x !== v)`. */
  function Without(s: seq<string>, v: string): (r: seq<string>)
    ensures v !in r
    ensures forall x :: x in r <==> x in s && x != v
    ensures forall x :: x != v ==> multiset(r)[x] == multiset(s)[x]
    ensures |r| <= |s|
  {
    if |s| == 0 then []
    else
      assert s == [s[0]] + s[1..];
      if s[0] == v then Without(s[1..], v)
      else [s[0]] + Without(s[1..], v)
  }

  /** `s.filter(x => !vs.includes(x))`. */
  function WithoutAny(s: seq<string>, vs: seq<string>): (r: seq<string>)
    ensures forall x :: x in r <==> x in s && x !in vs
    ensures forall x :: x !in vs ==> multiset(r)[x] == multiset(s)[x]
  {
    if |s| == 0 then []
    else
      assert s == [s[0]] + s[1..];
      if s[0] in vs then WithoutAny(s[1..], vs)
      else [s[0]] + WithoutAny(s[1..], vs)
  }

  /** `[...new Set(s)]` once the elements of `seen` have been inserted: the
      first occurrence of each element not already seen, in order. */
  function DedupFrom(s: seq<string>, seen: set<string>): (r: seq<string>)
    ensures forall x :: x in r <==> x in s && x !in seen
    ensures NoDuplicates(r)
  {
    if |s| == 0 then []
    else if s[0] in seen then DedupFrom(s[1..], seen)
    else [s[0]] + DedupFrom(s[1..], seen + {s[0]})
  }

  /** `[...new Set(s)]`. */
  function Dedup(s: seq<string>): (r: seq<string>)
    ensures Elems(r) == Elems(s)
    ensures NoDuplicates(r)
  {
    DedupFrom(s, {})
  }

  /** The filter distributes over concatenation. */
  lemma {:induction false} WithoutAppend(a: seq<string>, b: seq<string>, v: string)
    ensures Without(a + b, v) == Without(a, v) + Without(b, v)
  {
    if |a| > 0 {
      assert (a + b)[1..] == a[1..] + b;
      WithoutAppend(a[1..], b, v);
    } else {
      assert a + b == b;
    }
  }

  /** Filtering out a group distributes over concatenation too, so the ids
      kept stay in their original order. */
  lemma {:induction false} WithoutAnyAppend(a: seq<string>, b: seq<string>, vs: seq<string>)
    ensures WithoutAny(a + b, vs) == WithoutAny(a, vs) + WithoutAny(b, vs)
  {
    if |a| > 0 {
      assert (a + b)[0] == a[0];
      assert (a + b)[1..] == a[1..] + b;
      WithoutAnyAppend(a[1..], b, vs);
    } else {
      assert a + b == b;
    }
  }

  /** Filtering out a group leaves a sequence with no id of the group alone. */
  lemma {:induction false} WithoutAnyOfOthers(s: seq<string>, vs: seq<string>)
    requires forall i :: 0 <= i < |s| ==> s[i] !in vs
    ensures WithoutAny(s, vs) == s
  {
    if |s| > 0 {
      WithoutAnyOfOthers(s[1..], vs);
      assert s == [s[0]] + s[1..];
    }
  }

  /** Filtering out an absent element changes nothing. */
  lemma {:induction false} WithoutAbsent(s: seq<string>, v: string)
    requires v !in s
    ensures Without(s, v) == s
  {
    if |s| > 0 {
      assert v !in s[1..];
      WithoutAbsent(s[1..], v);
      assert s == [s[0]] + s[1..];
    }
  }

  /** Filtering a duplicate-free sequence leaves it duplicate-free. */
  lemma {:induction false} WithoutKeepsDistinct(s: seq<string>, v: string)
    requires NoDuplicates(s)
    ensures NoDuplicates(Without(s, v))
  {
    if |s| > 0 {
      assert NoDuplicates(s[1..]) by {
        forall i, j | 0 <= i < j < |s[1..]| ensures s[1..][i] != s[1..][j] {
          assert s[1..][i] == s[i + 1] && s[1..][j] == s[j + 1];
        }
      }
      WithoutKeepsDistinct(s[1..], v);
      if s[0] != v {
        var t := Without(s[1..], v);
        assert s[0] !in t by {
          assert s[0] !in s[1..];
        }
        ConsDistinct(s[0], t);
      }
    }
  }

  lemma {:induction false} WithoutAnyKeepsDistinct(s: seq<string>, vs: seq<string>)
    requires NoDuplicates(s)
    ensures NoDuplicates(WithoutAny(s, vs))
  {
    if |s| > 0 {
      assert NoDuplicates(s[1..]) by {
        forall i, j | 0 <= i < j < |s[1..]| ensures s[1..][i] != s[1..][j] {
          assert s[1..][i] == s[i + 1] && s[1..][j] == s[j + 1];
        }
      }
      WithoutAnyKeepsDistinct(s[1..], vs);
      if s[0] !in vs {
        var t := WithoutAny(s[1..], vs);
        assert s[0] !in t by {
          assert s[0] !in s[1..];
        }
        ConsDistinct(s[0], t);
      }
    }
  }

  lemma ConsDistinct(x: string, t: seq<string>)
    requires NoDuplicates(t) && x !in t
    ensures NoDuplicates([x] + t)
  {
    forall i, j | 0 <= i < j < |[x] + t| ensures ([x] + t)[i] != ([x] + t)[j] {
      if i == 0 {
        assert ([x] + t)[j] == t[j - 1];
      } else {
        assert ([x] + t)[i] == t[i - 1] && ([x] + t)[j] == t[j - 1];
      }
    }
  }

  /** Deduplicating a concatenation handles the second part with everything
      of the first part already seen. */
  lemma {:induction false} DedupFromAppend(a: seq<string>, b: seq<string>, seen: set<string>)
    ensures DedupFrom(a + b, seen) == DedupFrom(a, seen) + DedupFrom(b, seen + Elems(a))
  {
    if |a| == 0 {
      assert a + b == b;
      assert seen + Elems(a) == seen;
    } else {
      assert (a + b)[0] == a[0];
      assert (a + b)[1..] == a[1..] + b;
      assert Elems(a) == {a[0]} + Elems(a[1..]);
      if a[0] in seen {
        DedupFromAppend(a[1..], b, seen);
        assert seen + Elems(a[1..]) == seen + Elems(a);
      } else {
        DedupFromAppend(a[1..], b, seen + {a[0]});
        assert seen + {a[0]} + Elems(a[1..]) == seen + Elems(a);
      }
    }
  }

  /** A duplicate-free sequence none of whose elements has been seen comes
      through deduplication unchanged. */
  lemma {:induction false} DedupFromDistinct(s: seq<string>, seen: set<string>)
    requires NoDuplicates(s)
    requires forall x :: x in s ==> x !in seen
    ensures DedupFrom(s, seen) == s
  {
    if |s| > 0 {
      assert NoDuplicates(s[1..]) by {
        forall i, j | 0 <= i < j < |s[1..]| ensures s[1..][i] != s[1..][j] {
          assert s[1..][i] == s[i + 1] && s[1..][j] == s[j + 1];
        }
      }
      forall x | x in s[1..] ensures x !in seen + {s[0]} {
        var k :| 0 <= k < |s[1..]| && s[1..][k] == x;
        assert s[k + 1] == x;
      }
      DedupFromDistinct(s[1..], seen + {s[0]});
      assert s == [s[0]] + s[1..];
    }
  }

  // ---------------------------------------------------------------------
  // The handlers

  /** `updateBatch`: a shallow merge into the batch part of the settings; the
      two handlers only ever pass a new selection. */
  function WithSelection(settings: StudioSettings, selected: seq<string>): StudioSettings {
    settings.(batch := settings.batch.(selectedPresets := selected))
  }

  /** `togglePreset`: a selected id is removed (every occurrence); any other
      id is appended at the end. */
  function TogglePreset(settings: StudioSettings, presetId: string): (r: StudioSettings)
    ensures r.(batch := settings.batch) == settings
    ensures r.batch.enabled == settings.batch.enabled
    ensures presetId in settings.batch.selectedPresets ==>
      && presetId !in r.batch.selectedPresets
      && forall x :: x != presetId ==> (x in r.batch.selectedPresets <==> x in settings.batch.selectedPresets)
    ensures presetId !in settings.batch.selectedPresets ==>
      r.batch.selectedPresets == settings.batch.selectedPresets + [presetId]
  {
    var selected := settings.batch.selectedPresets;
    if presetId in selected then WithSelection(settings, Without(selected, presetId))
    else WithSelection(settings, selected + [presetId])
  }

  /** Toggling an unselected id twice restores the selection exactly. */
  lemma ToggleTwiceRestores(settings: StudioSettings, presetId: string)
    requires presetId !in settings.batch.selectedPresets
    ensures TogglePreset(TogglePreset(settings, presetId), presetId) == settings
  {
    var selected := settings.batch.selectedPresets;
    WithoutAppend(selected, [presetId], presetId);
    WithoutAbsent(selected, presetId);
    assert Without([presetId], presetId) == [];
  }

  /** A selection without duplicates stays without duplicates. */
  lemma ToggleKeepsDistinct(settings: StudioSettings, presetId: string)
    requires NoDuplicates(settings.batch.selectedPresets)
    ensures NoDuplicates(TogglePreset(settings, presetId).batch.selectedPresets)
  {
    var selected := settings.batch.selectedPresets;
    if presetId in selected {
      WithoutKeepsDistinct(selected, presetId);
    } else {
      var r := selected + [presetId];
      forall i, j | 0 <= i < j < |r| ensures r[i] != r[j] {
        if j == |selected| {
          assert r[i] == selected[i];
        }
      }
    }
  }

  /** `presets.map(p => p.id)`. */
  function PresetIds(presets: seq<Preset>): (ids: seq<string>)
    ensures |ids| == |presets|
    ensures forall i :: 0 <= i < |presets| ==> ids[i] == presets[i].id
  {
    seq(|presets|, i requires 0 <= i < |presets| => presets[i].id)
  }

  /** Every preset of the group is already selected. */
  predicate AllSelected(selected: seq<string>, presets: seq<Preset>) {
    forall i :: 0 <= i < |presets| ==> presets[i].id in selected
  }

  /** `selectAll(presets)`: when the whole group is already selected, every
      id of the group is removed; otherwise the group's ids are added after
      the current selection, dropping repeats. */
  function SelectAll(settings: StudioSettings, presets: seq<Preset>): (r: StudioSettings)
    ensures r.(batch := settings.batch) == settings
    ensures r.batch.enabled == settings.batch.enabled
    ensures AllSelected(settings.batch.selectedPresets, presets) ==>
      r.batch.selectedPresets == WithoutAny(settings.batch.selectedPresets, PresetIds(presets))
    ensures AllSelected(settings.batch.selectedPresets, presets) ==>
      forall x :: x in r.batch.selectedPresets <==>
        x in settings.batch.selectedPresets && forall i :: 0 <= i < |presets| ==> presets[i].id != x
    ensures !AllSelected(settings.batch.selectedPresets, presets) ==>
      && NoDuplicates(r.batch.selectedPresets)
      && AllSelected(r.batch.selectedPresets, presets)
      && forall x :: x in r.batch.selectedPresets <==>
           x in settings.batch.selectedPresets || exists i :: 0 <= i < |presets| && presets[i].id == x
  {
    var ids := PresetIds(presets);
    var selected := settings.batch.selectedPresets;
    if AllSelected(selected, presets) then
      WithSelection(settings, WithoutAny(selected, ids))
    else
      WithSelection(settings, Dedup(selected + ids))
  }

  /** Adding a group keeps the earlier selection first, in the order of
      first occurrence, and appends only the group's new ids; a selection
      without duplicates is kept exactly as it was. */
  lemma SelectAllKeepsOrder(settings: StudioSettings, presets: seq<Preset>)
    requires !AllSelected(settings.batch.selectedPresets, presets)
    ensures var selected := settings.batch.selectedPresets;
      SelectAll(settings, presets).batch.selectedPresets
        == Dedup(selected) + DedupFrom(PresetIds(presets), Elems(selected))
    ensures var selected := settings.batch.selectedPresets;
      NoDuplicates(selected) ==>
        SelectAll(settings, presets).batch.selectedPresets == selected + DedupFrom(PresetIds(presets), Elems(selected))
  {
    var selected := settings.batch.selectedPresets;
    DedupFromAppend(selected, PresetIds(presets), {});
    assert {} + Elems(selected) == Elems(selected);
    if NoDuplicates(selected) {
      DedupFromDistinct(selected, {});
    }
  }

  /** Selecting a group either way keeps a duplicate-free selection free of
      duplicates. */
  lemma SelectAllKeepsDistinct(settings: StudioSettings, presets: seq<Preset>)
    requires NoDuplicates(settings.batch.selectedPresets)
    ensures NoDuplicates(SelectAll(settings, presets).batch.selectedPresets)
  {
    if AllSelected(settings.batch.selectedPresets, presets) {
      WithoutAnyKeepsDistinct(settings.batch.selectedPresets, PresetIds(presets));
    }
  }

  /** Pressing "select all" twice on a partly selected group leaves the ids
      outside the group and none of the group's. */
  lemma SelectAllTwice(settings: StudioSettings, presets: seq<Preset>)
    requires !AllSelected(settings.batch.selectedPresets, presets)
    ensures var twice := SelectAll(SelectAll(settings, presets), presets).batch.selectedPresets;
      forall x :: x in twice <==>
        x in settings.batch.selectedPresets && forall i :: 0 <= i < |presets| ==> presets[i].id != x
  {
  }
}

=== FILE: controls.dfy ===
/** The settings handlers of the tools panel
    (src/components/studio/ControlsPanel.tsx): each button or field turns the
    current settings into new ones through `update`, a shallow merge. */
module Controls {
  import opened Util
  import opened Types
  import opened Presets
  import Transform

  /** A `Partial<ToolSettings>`: `None` leaves a field alone. `crop` is doubly
      optional because `update({ crop: undefined })` clears the crop. */
  datatype ToolPatch = ToolPatch(
    rotation: Option<int>,
    flipH: Option<bool>,
    flipV: Option<bool>,
    resize: Option<ResizeSettings>,
    quality: Option<int>,
    format: Option<string>,
    crop: Option<Option<CropData>>)

  const NoChange: ToolPatch := ToolPatch(None, None, None, None, None, None, None)

  function Pick<T>(patch: Option<T>, current: T): T {
    if patch.Some? then patch.value else current
  }

  /** `update(partial)`: `{ ...settings, ...partial }`. Every field the patch
      names takes the patch's value; every other field keeps its own. */
  function Update(settings: ToolSettings, patch: ToolPatch): (r: ToolSettings)
    ensures patch.rotation.None? ==> r.rotation == settings.rotation
    ensures patch.rotation.Some? ==> r.rotation == patch.rotation.value
    ensures patch.flipH.None? ==> r.flipH == settings.flipH
    ensures patch.flipH.Some? ==> r.flipH == patch.flipH.value
    ensures patch.flipV.None? ==> r.flipV == settings.flipV
    ensures patch.flipV.Some? ==> r.flipV == patch.flipV.value
    ensures patch.resize.None? ==> r.resize == settings.resize
    ensures patch.resize.Some? ==> r.resize == patch.resize.value
    ensures patch.quality.None? ==> r.quality == settings.quality
    ensures patch.quality.Some? ==> r.quality == patch.quality.value
    ensures patch.format.None? ==> r.format == settings.format
    ensures patch.format.Some? ==> r.format == patch.format.value
    ensures patch.crop.None? ==> r.crop == settings.crop
    ensures patch.crop.Some? ==> r.crop == patch.crop.value
  {
    ToolSettings(
      Pick(patch.rotation, settings.rotation),
      Pick(patch.flipH, settings.flipH),
      Pick(patch.flipV, settings.flipV),
      Pick(patch.resize, settings.resize),
      Pick(patch.quality, settings.quality),
      Pick(patch.format, settings.format),
      Pick(patch.crop, settings.crop))
  }

  lemma UpdateNothing(settings: ToolSettings)
    ensures Update(settings, NoChange) == settings
  {
  }

  // ---------------------------------------------------------------------
  // Rotation and flips

  /** `rotateCW`: a quarter turn clockwise, `(rotation + 90) % 360`. */
  function RotateCW(settings: ToolSettings): (r: ToolSettings)
    ensures r.(rotation := settings.rotation) == settings
    ensures Transform.IsQuarterTurn(settings.rotation) ==> Transform.IsQuarterTurn(r.rotation)
    ensures settings.rotation >= 0 ==> r.rotation == (settings.rotation + 90) % 360
  {
    Update(settings, NoChange.(rotation := Some(JsRem(settings.rotation + 90, 360))))
  }

  /** `rotateCCW`: three quarter turns clockwise, `(rotation + 270) % 360`. */
  function RotateCCW(settings: ToolSettings): (r: ToolSettings)
    ensures r.(rotation := settings.rotation) == settings
    ensures Transform.IsQuarterTurn(settings.rotation) ==> Transform.IsQuarterTurn(r.rotation)
    ensures settings.rotation >= 0 ==> r.rotation == (settings.rotation + 270) % 360
  {
    Update(settings, NoChange.(rotation := Some(JsRem(settings.rotation + 270, 360))))
  }

  /** On the four reachable angles the two buttons undo each other. */
  lemma RotateCCWUndoesCW(settings: ToolSettings)
    requires Transform.IsQuarterTurn(settings.rotation)
    ensures RotateCCW(RotateCW(settings)) == settings
    ensures RotateCW(RotateCCW(settings)) == settings
  {
  }

  /** Four clockwise quarter turns come back to the start. */
  lemma FourTurnsIdentity(settings: ToolSettings)
    requires Transform.IsQuarterTurn(settings.rotation)
    ensures RotateCW(RotateCW(RotateCW(RotateCW(settings)))) == settings
  {
  }

  /** From any non-negative angle, one button then the other normalises the
      angle into [0, 360). */
  lemma RotateRoundTripNormalises(settings: ToolSettings)
    requires settings.rotation >= 0
    ensures RotateCCW(RotateCW(settings)).rotation == settings.rotation % 360
  {
  }

  function ToggleFlipH(settings: ToolSettings): (r: ToolSettings)
    ensures r.flipH == !settings.flipH
    ensures r.(flipH := settings.flipH) == settings
  {
    Update(settings, NoChange.(flipH := Some(!settings.flipH)))
  }

  function ToggleFlipV(settings: ToolSettings): (r: ToolSettings)
    ensures r.flipV == !settings.flipV
    ensures r.(flipV := settings.flipV) == settings
  {
    Update(settings, NoChange.(flipV := Some(!settings.flipV)))
  }

  lemma FlipsAreInvolutions(settings: ToolSettings)
    ensures ToggleFlipH(ToggleFlipH(settings)) == settings
    ensures ToggleFlipV(ToggleFlipV(settings)) == settings
  {
  }

  // ---------------------------------------------------------------------
  // Resize fields

  /** `parseInt(value) || 0`, given the parse result (`None` for NaN). */
  function ParsedOrZero(parsed: Option<int>): int {
    if parsed.Some? then parsed.value else 0
  }

  /** `handleResizeWidth`: sets the width; with the aspect lock on and an
      image loaded, the height follows as the nearest integer to
      `w * imageHeight / imageWidth`. */
  function HandleResizeWidth(settings: ToolSettings, image: Option<ImageFile>, parsed: Option<int>): (r: ToolSettings)
    ensures r.(resize := settings.resize) == settings
    ensures r.resize.width == ParsedOrZero(parsed)
    ensures r.resize.maintainAspect == settings.resize.maintainAspect
    ensures settings.resize.maintainAspect && image.Some? ==>
      var img := image.value;
      var exact := (r.resize.width * img.height) as real / img.width as real;
      exact - 0.5 < r.resize.height as real <= exact + 0.5
    ensures !(settings.resize.maintainAspect && image.Some?) ==> r.resize.height == settings.resize.height
  {
    var w := ParsedOrZero(parsed);
    if settings.resize.maintainAspect && image.Some? then
      var ratio := image.value.height as real / image.value.width as real;
      assert w as real * ratio == (w * image.value.height) as real / image.value.width as real;
      Update(settings, NoChange.(resize := Some(settings.resize.(width := w, height := Round(w as real * ratio)))))
    else
      Update(settings, NoChange.(resize := Some(settings.resize.(width := w))))
  }

  /** `handleResizeHeight`: the mirror image of the width field. */
  function HandleResizeHeight(settings: ToolSettings, image: Option<ImageFile>, parsed: Option<int>): (r: ToolSettings)
    ensures r.(resize := settings.resize) == settings
    ensures r.resize.height == ParsedOrZero(parsed)
    ensures r.resize.maintainAspect == settings.resize.maintainAspect
    ensures settings.resize.maintainAspect && image.Some? ==>
      var img := image.value;
      var exact := (r.resize.height * img.width) as real / img.height as real;
      exact - 0.5 < r.resize.width as real <= exact + 0.5
    ensures !(settings.resize.maintainAspect && image.Some?) ==> r.resize.width == settings.resize.width
  {
    var h := ParsedOrZero(parsed);
    if settings.resize.maintainAspect && image.Some? then
      var ratio := image.value.width as real / image.value.height as real;
      assert h as real * ratio == (h * image.value.width) as real / image.value.height as real;
      Update(settings, NoChange.(resize := Some(settings.resize.(height := h, width := Round(h as real * ratio)))))
    else
      Update(settings, NoChange.(resize := Some(settings.resize.(height := h))))
  }

  /** Typing the image's own width with the lock on restores its own height,
      and the same for the height field. */
  lemma AspectLockRestoresImageSize(settings: ToolSettings, image: ImageFile)
    requires settings.resize.maintainAspect
    ensures HandleResizeWidth(settings, Some(image), Some(image.width)).resize.height == image.height
    ensures HandleResizeHeight(settings, Some(image), Some(image.height)).resize.width == image.width
  {
    var r1 := HandleResizeWidth(settings, Some(image), Some(image.width));
    CancelFactor(image.width, image.height);
    NearestOfInteger(r1.resize.height, image.height);
    var r2 := HandleResizeHeight(settings, Some(image), Some(image.height));
    CancelFactor(image.height, image.width);
    NearestOfInteger(r2.resize.width, image.width);
  }

  lemma CancelFactor(a: int, b: int)
    requires a != 0
    ensures (a * b) as real / a as real == b as real
  {
    assert (a * b) as real == a as real * b as real;
  }

  /** The only integer within half a unit of an integer is itself. */
  lemma NearestOfInteger(r: int, n: int)
    requires n as real - 0.5 < r as real <= n as real + 0.5
    ensures r == n
  {
  }

  // ---------------------------------------------------------------------
  // Resolution preset menu

  /** `handlePresetSelect`: "original" with an image picks the image size; a
      catalog id picks that preset's size; anything else changes nothing. The
      aspect lock is never touched. */
  function HandlePresetSelect(settings: ToolSettings, image: Option<ImageFile>, presetId: string): (r: ToolSettings)
    ensures r.(resize := settings.resize) == settings
    ensures r.resize.maintainAspect == settings.resize.maintainAspect
    ensures presetId == "original" && image.Some? ==>
      r.resize.width == image.value.width && r.resize.height == image.value.height
    ensures presetId != "original" && FindResolutionPreset(presetId).Some? ==>
      exists p :: p in ResolutionPresets && p.id == presetId && r.resize.width == p.width && r.resize.height == p.height
    ensures presetId == "original" && image.None? ==> r == settings
    ensures presetId != "original" && FindResolutionPreset(presetId).None? ==> r == settings
  {
    ResolutionTableShape();
    if presetId == "original" && image.Some? then
      Update(settings, NoChange.(resize := Some(settings.resize.(width := image.value.width, height := image.value.height))))
    else
      match FindResolutionPreset(presetId)
      case Some(p) => Update(settings, NoChange.(resize := Some(settings.resize.(width := p.width, height := p.height))))
      case None => settings
  }

  /** `formatSupportsQuality`: true exactly for the lossy formats of the
      table; an id missing from the table gives false. */
  function FormatSupportsQuality(format: string): (r: bool)
    ensures r <==> IsQualityFormat(format)
  {
    FindFormatTable(format);
    match FindFormat(format)
    case Some(f) => f.supportsQuality
    case None => false
  }
}

=== FILE: export.dfy ===
/** The export pipeline (src/lib/image/export.ts): the PNG-in-ICO container,
    the routing of a canvas to the browser's encoder, the quality search
    against a target size, the export filename, and single and batch export.
    The browser's encoder and the compositor are not part of this model: an
    `Encoder` stands for `canvas.toBlob` on one fixed canvas, and a
    `Compose` stands for `composeCanvas` on the already processed source. */
module Export {
  import opened Util
  import opened Types
  import opened Presets
  import opened Studio
  import OutputControls

  /** The bytes of a Blob. */
  type Blob = seq<Byte>

  /** `canvas.toBlob(callback, mimeType, quality)` on one canvas: the bytes
      the callback receives, or `None` when it receives null. Deterministic. */
  type Encoder = (string, Option<real>) -> Option<Blob>

  // ---------------------------------------------------------------------
  // The ICO container (Windows ICO file format, one PNG-compressed image)

  const IcoHeaderSize: nat := 6
  const IcoEntrySize: nat := 16
  /** Where the image data starts: right after the header and one entry. */
  const IcoDataOffset: nat := 22
  const Two32: int := 0x1_0000_0000

  /** The unsigned little-endian 32-bit value stored in the four bytes from
      `at`. */
  function LittleEndian32(b: seq<Byte>, at: nat): (v: int)
    requires at + 4 <= |b|
    ensures 0 <= v < Two32
  {
    var b0, b1, b2, b3: int := b[at], b[at + 1], b[at + 2], b[at + 3];
    b0 + 256 * b1 + 65536 * b2 + 16777216 * b3
  }

  /** The little-endian 16-bit value stored in the two bytes from `at`. */
  function LittleEndian16(b: seq<Byte>, at: nat): (v: int)
    requires at + 2 <= |b|
    ensures 0 <= v < 65536
  {
    var b0, b1: int := b[at], b[at + 1];
    b0 + 256 * b1
  }

  /** `pngToIco`: a 6-byte ICONDIR (reserved 0, type 1 = icon, one image),
      one 16-byte ICONDIRENTRY (width and height 0, no palette, one colour
      plane, 32 bits per pixel, data size, data offset 22) and the PNG bytes
      verbatim. The size bytes are computed with JavaScript's 32-bit `&` and
      `>>`, which is the payload length modulo 2^32. */
  function PngToIco(png: Blob): (ico: Blob)
    ensures |ico| == IcoDataOffset + |png|
    ensures ico[..IcoHeaderSize] == [0, 0, 1, 0, 1, 0]
    ensures ico[6] == 0 && ico[7] == 0 && ico[8] == 0 && ico[9] == 0
    ensures LittleEndian16(ico, 10) == 1 && LittleEndian16(ico, 12) == 32
    ensures LittleEndian32(ico, 14) == |png| % Two32
    ensures LittleEndian32(ico, 18) == IcoDataOffset
    ensures ico[IcoDataOffset..] == png
  {
    var n := |png|;
    var q1 := n / 256;
    var q2 := q1 / 256;
    var q3 := q2 / 256;
    var header: Blob := [0, 0, 1, 0, 1, 0];
    var entry: Blob := [0, 0, 0, 0, 1, 0, 32, 0, n % 256, q1 % 256, q2 % 256, q3 % 256, 22, 0, 0, 0];
    var ico := header + entry + png;
    assert ico[..IcoHeaderSize] == header;
    assert ico[IcoDataOffset..] == png;
    SizeBytes(n);
    ico
  }

  /** The four size bytes of the entry spell the length modulo 2^32. */
  lemma SizeBytes(n: nat)
    ensures var q1 := n / 256; var q2 := q1 / 256; var q3 := q2 / 256;
      n % 256 + 256 * (q1 % 256) + 65536 * (q2 % 256) + 16777216 * (q3 % 256) == n % Two32
  {
    var q1 := n / 256;
    var q2 := q1 / 256;
    var q3 := q2 / 256;
    var q4 := q3 / 256;
    assert n == 256 * q1 + n % 256;
    assert q1 == 256 * q2 + q1 % 256;
    assert q2 == 256 * q3 + q2 % 256;
    assert q3 == 256 * q4 + q3 % 256;
    var low := n % 256 + 256 * (q1 % 256) + 65536 * (q2 % 256) + 16777216 * (q3 % 256);
    assert n == Two32 * q4 + low;
  }

  /** Reads a single-image ICO file back: checks the header, then takes the
      image data from the offset and size the entry records. */
  function ParseIco(bytes: Blob): (r: Option<Blob>)
    ensures r.Some? ==> |r.value| <= |bytes| - IcoDataOffset
  {
    if |bytes| < IcoDataOffset || bytes[..IcoHeaderSize] != [0, 0, 1, 0, 1, 0] then None
    else
      var size := LittleEndian32(bytes, 14);
      var offset := LittleEndian32(bytes, 18);
      if offset < IcoDataOffset || offset + size > |bytes| then None
      else Some(bytes[offset..offset + size])
  }

  /** The container round-trips every PNG below 4 GiB. */
  lemma IcoRoundTrip(png: Blob)
    requires |png| < Two32
    ensures ParseIco(PngToIco(png)) == Some(png)
  {
    var ico := PngToIco(png);
    assert |png| % Two32 == |png|;
    assert ico[..IcoHeaderSize] == [0, 0, 1, 0, 1, 0];
    assert ico[IcoDataOffset..IcoDataOffset + |png|] == png;
  }

  /** From 4 GiB on the stored size wraps around and a reader recovers only
      the first `|png| mod 2^32` bytes. */
  lemma IcoSizeWraps(png: Blob)
    requires |png| >= Two32
    ensures ParseIco(PngToIco(png)) == Some(png[..|png| % Two32])
  {
    var ico := PngToIco(png);
    assert ico[IcoDataOffset..IcoDataOffset + |png| % Two32] == png[..|png| % Two32];
  }

  // ---------------------------------------------------------------------
  // canvasToBlob

  /** How a `canvasToBlob` promise ends: with a Blob, rejected ("Failed to
      create blob"), or never (the ICO branch ignores a null blob). */
  datatype Outcome = Resolved(blob: Blob) | Rejected | Unsettled

  /** The MIME type `canvasToBlob` asks the encoder for: the table's, or PNG
      for a format the table does not list. */
  function RequestedMime(format: string): (mime: string)
    ensures format == "png" || format !in {"jpg", "webp", "ico", "bmp", "avif"} ==> mime == "image/png"
    ensures format == "jpg" ==> mime == "image/jpeg"
    ensures format == "webp" ==> mime == "image/webp"
    ensures format == "ico" ==> mime == "image/x-icon"
    ensures format == "bmp" ==> mime == "image/bmp"
    ensures format == "avif" ==> mime == "image/avif"
  {
    FindFormatTable(format);
    match FindFormat(format)
    case Some(f) => if f.mimeType != "" then f.mimeType else "image/png"
    case None => "image/png"
  }

  /** The quality argument: `quality / 100` for a lossy format, none (so the
      encoder's default) for every other format, listed or not. */
  function RequestedQuality(format: string, quality: int): (q: Option<real>)
    ensures q.Some? <==> IsQualityFormat(format)
    ensures q.Some? ==> q.value * 100.0 == quality as real
  {
    FindFormatTable(format);
    match FindFormat(format)
    case Some(f) => if f.supportsQuality then Some(quality as real / 100.0) else None
    case None => None
  }

  /** `canvasToBlob(canvas, format, quality)`. ICO is encoded as PNG at the
      encoder's default quality and wrapped; any other format goes to the
      encoder with the requested MIME type and quality, and a null blob
      rejects. */
  function CanvasToBlob(encode: Encoder, format: string, quality: int): (r: Outcome)
    ensures format == "ico" ==>
      (r.Resolved? <==> encode("image/png", None).Some?) &&
      (r.Resolved? ==> r.blob == PngToIco(encode("image/png", None).value)) &&
      (r.Resolved? || r.Unsettled?)
    ensures format != "ico" ==>
      var requested := encode(RequestedMime(format), RequestedQuality(format, quality));
      (r.Resolved? <==> requested.Some?) &&
      (r.Resolved? ==> r.blob == requested.value) &&
      (r.Resolved? || r.Rejected?)
  {
    if format == "ico" then
      match encode("image/png", None)
      case Some(png) => Resolved(PngToIco(png))
      case None => Unsettled
    else
      match encode(RequestedMime(format), RequestedQuality(format, quality))
      case Some(blob) => Resolved(blob)
      case None => Rejected
  }

  /** Quality only reaches the encoder for the lossy formats: for every other
      format the encoding does not depend on it. */
  lemma QualityIgnoredWhenUnsupported(encode: Encoder, format: string, q1: int, q2: int)
    requires !IsQualityFormat(format)
    ensures CanvasToBlob(encode, format, q1) == CanvasToBlob(encode, format, q2)
  {
  }

  // ---------------------------------------------------------------------
  // optimizeToTargetSize

  /** `targetSizeMB * 1024 * 1024`. */
  function TargetBytes(targetSizeMB: real): real {
    targetSizeMB * 1024.0 * 1024.0
  }

  /** An encoding attempt that produced a Blob no larger than the target. */
  predicate Fits(o: Outcome, targetBytes: real) {
    o.Resolved? && |o.blob| as real <= targetBytes
  }

  /** How the search ends: with the last Blob and the quality it was encoded
      at, or with the first encoding attempt that did not produce a Blob
      (the awaited promise rejects, or never settles). */
  datatype Optimized = Optimized(blob: Blob, quality: int) | Aborted(failure: Outcome)

  const MinSearchQuality: int := 10

  /** `optimizeToTargetSize`: encode at the start quality; for ICO stop there
      and report quality 100. Otherwise bisect between 10 and the start
      quality while the bracket is wider than 5 and the last Blob is too
      large, and if the last Blob is still too large fall back to quality
      10. The search stops at the first probe that fits. */
  method OptimizeToTargetSize(encode: Encoder, targetSizeMB: real, format: string, startQuality: int)
    returns (r: Optimized)
    ensures r.Aborted? ==> !r.failure.Resolved?
    ensures (forall q :: CanvasToBlob(encode, format, q).Resolved?) ==> r.Optimized?
    ensures format == "ico" && r.Optimized? ==>
      r.quality == 100 && CanvasToBlob(encode, format, startQuality) == Resolved(r.blob)
    ensures format != "ico" && r.Optimized? ==> CanvasToBlob(encode, format, r.quality) == Resolved(r.blob)
    ensures format != "ico" && r.Optimized? && startQuality >= MinSearchQuality ==>
      MinSearchQuality <= r.quality <= startQuality
    ensures format != "ico" && r.Optimized? && r.quality > MinSearchQuality ==>
      |r.blob| as real <= TargetBytes(targetSizeMB)
    ensures format != "ico" && r.Optimized? && Fits(CanvasToBlob(encode, format, startQuality), TargetBytes(targetSizeMB)) ==>
      r.quality == startQuality
    ensures format != "ico" && r.Optimized? && r.quality != startQuality ==>
      !Fits(CanvasToBlob(encode, format, startQuality), TargetBytes(targetSizeMB))
  {
    var targetBytes := TargetBytes(targetSizeMB);
    var quality := startQuality;
    var outcome := CanvasToBlob(encode, format, quality);
    if !outcome.Resolved? {
      return Aborted(outcome);
    }
    var blob := outcome.blob;
    if format == "ico" {
      return Optimized(blob, 100);
    }
    var minQuality := MinSearchQuality;
    var maxQuality := quality;
    while maxQuality - minQuality > 5 && |blob| as real > targetBytes
      invariant MinSearchQuality <= minQuality
      invariant startQuality >= MinSearchQuality ==> minQuality <= quality <= maxQuality <= startQuality
      invariant quality != startQuality ==> quality < maxQuality || maxQuality < startQuality
      invariant CanvasToBlob(encode, format, quality) == Resolved(blob)
      invariant quality != startQuality ==> !Fits(CanvasToBlob(encode, format, startQuality), targetBytes)
      decreases maxQuality - minQuality
    {
      quality := (minQuality + maxQuality) / 2;
      assert minQuality < quality < maxQuality;
      outcome := CanvasToBlob(encode, format, quality);
      if !outcome.Resolved? {
        return Aborted(outcome);
      }
      blob := outcome.blob;
      if |blob| as real > targetBytes {
        maxQuality := quality;
      } else {
        minQuality := quality;
      }
    }
    if |blob| as real > targetBytes && quality > MinSearchQuality {
      outcome := CanvasToBlob(encode, format, MinSearchQuality);
      if !outcome.Resolved? {
        return Aborted(outcome);
      }
      blob := outcome.blob;
      quality := MinSearchQuality;
    }
    return Optimized(blob, quality);
  }

  // ---------------------------------------------------------------------
  // generateFilename

  /** The index of the dot that `/\.[^/.]+$/` matches: the last dot, when
      at least one character follows it and none of those is a slash. */
  function ExtensionStart(name: string): (r: Option<nat>)
    ensures r.Some? ==> ExtensionAt(name, r.value)
    ensures r.None? ==> forall i :: 0 <= i < |name| ==> !ExtensionAt(name, i)
  {
    match LastDot(name, |name|)
    case None => None
    case Some(i) => if i + 1 < |name| && '/' !in name[i + 1..] then Some(i) else None
  }

  /** A dot at `i` that the extension pattern can match from. */
  predicate ExtensionAt(name: string, i: int) {
    && 0 <= i < |name| - 1
    && name[i] == '.'
    && forall j :: i < j < |name| ==> name[j] != '.' && name[j] != '/'
  }

  /** `originalName.replace(/\.[^/.]+$/, '')`. */
  function StripExtension(name: string): (base: string)
    ensures base <= name
    ensures base != name ==> ExtensionAt(name, |base|)
    ensures base == name ==> forall i :: 0 <= i < |name| ==> !ExtensionAt(name, i)
  {
    match ExtensionStart(name)
    case Some(i) => name[..i]
    case None => name
  }

  /** At most one dot can start the extension. */
  lemma ExtensionAtUnique(name: string, i: int, k: int)
    requires ExtensionAt(name, i) && ExtensionAt(name, k)
    ensures i == k
  {
  }

  /** A name built as base, dot and a non-empty extension without dots or
      slashes loses exactly that extension. */
  lemma StripExtensionOf(base: string, ext: string)
    requires |ext| > 0 && forall j :: 0 <= j < |ext| ==> ext[j] != '.' && ext[j] != '/'
    ensures StripExtension(base + "." + ext) == base
  {
    var name := base + "." + ext;
    assert ExtensionAt(name, |base|) by {
      forall j | |base| < j < |name| ensures name[j] != '.' && name[j] != '/' {
        assert name[j] == ext[j - |base| - 1];
      }
    }
    var stripped := StripExtension(name);
    ExtensionAtUnique(name, |base|, |stripped|);
    assert name[..|base|] == base;
  }

  /** `_${mode}` for a non-empty mode, nothing otherwise. */
  function ModeSuffix(mode: Option<string>): (s: string)
    ensures s == "" <==> mode.None? || mode.value == ""
    ensures s != "" ==> s[0] == '_' && s[1..] == mode.value
  {
    if mode.Some? && mode.value != "" then "_" + mode.value else ""
  }

  /** `_${preset.id}` for a preset, `_${width}x${height}` otherwise. */
  function SizeSuffix(preset: Option<Preset>, width: int, height: int): (s: string)
    ensures |s| > 0 && s[0] == '_'
    ensures preset.Some? ==> s[1..] == preset.value.id
    ensures preset.None? ==> 'x' in s
  {
    if preset.Some? then "_" + preset.value.id
    else "_" + IntToString(width) + "x" + IntToString(height)
  }

  /** Without a preset the suffix determines the size: the first 'x' in it
      ends the width, since a rendered integer holds only digits and '-'. */
  lemma SizeSuffixInjective(w1: int, h1: int, w2: int, h2: int)
    requires SizeSuffix(None, w1, h1) == SizeSuffix(None, w2, h2)
    ensures w1 == w2 && h1 == h2
  {
    SizeSuffixParts(w1, h1);
    SizeSuffixParts(w2, h2);
    SeparatedIntsInjective(w1, h1, w2, h2, "x");
  }

  lemma SizeSuffixParts(w: int, h: int)
    ensures SizeSuffix(None, w, h)[1..] == IntToString(w) + ("x" + IntToString(h))
  {
    var a, b := IntToString(w), IntToString(h);
    assert SizeSuffix(None, w, h) == "_" + (a + ("x" + b));
  }

  /** A dot followed by at least one character, none of them a dot or a
      slash: what the extension pattern strips. */
  predicate PlainExtension(ext: string) {
    |ext| >= 2 && ext[0] == '.' && forall j :: 1 <= j < |ext| ==> ext[j] != '.' && ext[j] != '/'
  }

  lemma PlainTableExtension(format: string)
    ensures format in {"png", "jpg", "webp", "ico", "bmp", "avif"} ==> PlainExtension("." + format)
    ensures PlainExtension(".png")
  {
  }

  /** The file extension for a format id: the table's, `.png` otherwise. */
  function ExtensionFor(format: string): (ext: string)
    ensures format in {"png", "jpg", "webp", "ico", "bmp", "avif"} ==> ext == "." + format
    ensures format !in {"png", "jpg", "webp", "ico", "bmp", "avif"} ==> ext == ".png"
    ensures PlainExtension(ext)
  {
    FindFormatTable(format);
    FormatTableShape();
    PlainTableExtension(format);
    match FindFormat(format)
    case Some(f) => if f.extension != "" then f.extension else ".png"
    case None => ".png"
  }

  /** `generateFilename(originalName, preset, width, height, format, mode)`. */
  function GenerateFilename(originalName: string, preset: Option<Preset>, width: int, height: int,
                            format: string, mode: Option<string>): (r: string)
    ensures StripExtension(originalName) <= r
    ensures |r| >= |ExtensionFor(format)| && r[|r| - |ExtensionFor(format)|..] == ExtensionFor(format)
  {
    var ext := ExtensionFor(format);
    var r := StripExtension(originalName) + ModeSuffix(mode) + SizeSuffix(preset, width, height) + ext;
    assert r[|r| - |ext|..] == ext;
    r
  }

  /** Stripping the extension of a generated name gives back everything
      before it: the added extension is the only one removed. */
  lemma FilenameExtensionRoundTrip(originalName: string, preset: Option<Preset>, width: int, height: int,
                                   format: string, mode: Option<string>)
    ensures StripExtension(GenerateFilename(originalName, preset, width, height, format, mode))
         == StripExtension(originalName) + ModeSuffix(mode) + SizeSuffix(preset, width, height)
  {
    var stem := StripExtension(originalName) + ModeSuffix(mode) + SizeSuffix(preset, width, height);
    var ext := ExtensionFor(format);
    assert GenerateFilename(originalName, preset, width, height, format, mode) == stem + ext;
    StripAddedExtension(stem, ext);
  }

  /** Stripping an added dot-extension without dots or slashes. */
  lemma StripAddedExtension(stem: string, ext: string)
    requires PlainExtension(ext)
    ensures StripExtension(stem + ext) == stem
  {
    var id := ext[1..];
    assert ext == "." + id;
    assert stem + ext == stem + "." + id;
    assert forall j :: 0 <= j < |id| ==> id[j] == ext[j + 1];
    StripExtensionOf(stem, id);
  }

  /** Two different presets never share a generated name, so a batch archive
      holds one file per preset. */
  lemma PresetFilenamesDistinct(originalName: string, p1: Preset, p2: Preset, w1: int, h1: int, w2: int, h2: int,
                                format: string, mode: Option<string>)
    requires p1.id != p2.id
    ensures GenerateFilename(originalName, Some(p1), w1, h1, format, mode)
         != GenerateFilename(originalName, Some(p2), w2, h2, format, mode)
  {
    var prefix := StripExtension(originalName) + ModeSuffix(mode);
    var ext := ExtensionFor(format);
    var s1 := SizeSuffix(Some(p1), w1, h1);
    var s2 := SizeSuffix(Some(p2), w2, h2);
    assert s1 != s2 by {
      assert s1[1..] == p1.id && s2[1..] == p2.id;
    }
    if GenerateFilename(originalName, Some(p1), w1, h1, format, mode)
       == GenerateFilename(originalName, Some(p2), w2, h2, format, mode) {
      CancelAround(prefix, s1, s2, ext);
    }
  }

  /** Equal sequences with a common prefix and suffix agree in between. */
  lemma CancelAround(a: string, x: string, y: string, c: string)
    requires a + x + c == a + y + c
    ensures x == y
  {
    assert |x| == |y|;
    assert x == (a + x + c)[|a|..|a| + |x|];
    assert y == (a + y + c)[|a|..|a| + |y|];
  }

  // ---------------------------------------------------------------------
  // exportSingle and exportBatch

  /** A composed canvas: its size and the encoder bound to its pixels. */
  datatype Canvas = Canvas(width: int, height: int, encode: Encoder)

  /** `composeCanvas(processedSource, wallpaper, output)` for the source being
      exported, already run through `processImage`. */
  type Compose = (WallpaperSettings, OutputSettings) -> Canvas

  datatype ExportResult = ExportResult(blob: Blob, filename: string, width: int, height: int, format: string, size: nat)

  /** How `exportSingle` ends: with a result, or with the encoding attempt
      that did not produce a Blob. */
  datatype Exported = Exported(result: ExportResult) | ExportFailed(failure: Outcome)

  /** The mode passed to the filename: the wallpaper mode only in wallpaper
      mode. */
  function WallpaperMode(wallpaper: WallpaperSettings): (m: Option<string>)
    ensures m.Some? <==> wallpaper.enabled
    ensures m.Some? ==> m.value == wallpaper.mode
  {
    if wallpaper.enabled then Some(wallpaper.mode) else None
  }

  /** `exportSingle`: compose the canvas, encode it (searching for a quality
      when a target size is set and the format is not ICO), and name the file
      after the selected preset, or the canvas size when the preset id is not
      in the catalog. */
  method ExportSingle(image: ImageFile, settings: StudioSettings, catalog: seq<Preset>, compose: Compose)
    returns (r: Exported)
    ensures r.ExportFailed? ==> !r.failure.Resolved?
    ensures r.Exported? ==>
      var canvas := compose(settings.wallpaper, settings.output);
      && r.result.width == canvas.width && r.result.height == canvas.height
      && r.result.format == settings.optimization.format
      && r.result.size == |r.result.blob|
      && r.result.filename == GenerateFilename(image.name, GetPresetById(catalog, settings.output.preset),
                                               canvas.width, canvas.height, settings.optimization.format,
                                               WallpaperMode(settings.wallpaper))
    ensures !(settings.optimization.targetSizeEnabled && settings.optimization.format != "ico") ==>
      var outcome := CanvasToBlob(compose(settings.wallpaper, settings.output).encode,
                                  settings.optimization.format, settings.optimization.quality);
      (r.Exported? <==> outcome.Resolved?) && (r.Exported? ==> r.result.blob == outcome.blob)
    ensures settings.optimization.targetSizeEnabled && settings.optimization.format != "ico" && r.Exported? ==>
      var opt := settings.optimization;
      exists q :: && CanvasToBlob(compose(settings.wallpaper, settings.output).encode, opt.format, q) == Resolved(r.result.blob)
                  && (opt.quality >= MinSearchQuality ==> MinSearchQuality <= q <= opt.quality)
                  && (q > MinSearchQuality ==> |r.result.blob| as real <= TargetBytes(opt.targetSizeMB))
  {
    var canvas := compose(settings.wallpaper, settings.output);
    var opt := settings.optimization;
    var blob: Blob;
    if opt.targetSizeEnabled && opt.format != "ico" {
      var result := OptimizeToTargetSize(canvas.encode, opt.targetSizeMB, opt.format, opt.quality);
      if result.Aborted? {
        return ExportFailed(result.failure);
      }
      blob := result.blob;
      assert CanvasToBlob(canvas.encode, opt.format, result.quality) == Resolved(blob);
    } else {
      var outcome := CanvasToBlob(canvas.encode, opt.format, opt.quality);
      if !outcome.Resolved? {
        return ExportFailed(outcome);
      }
      blob := outcome.blob;
    }
    var filename := GenerateFilename(image.name, GetPresetById(catalog, settings.output.preset),
                                     canvas.width, canvas.height, opt.format, WallpaperMode(settings.wallpaper));
    return Exported(ExportResult(blob, filename, canvas.width, canvas.height, opt.format, |blob|));
  }

  /** The settings one batch entry is rendered with: the input settings with
      the output switched to the preset's id and size. */
  function EntrySettings(settings: StudioSettings, presetId: string, preset: Preset): (r: StudioSettings)
    ensures r.(output := settings.output) == settings
    ensures r.output.(preset := settings.output.preset, customWidth := settings.output.customWidth,
                      customHeight := settings.output.customHeight) == settings.output
    ensures r.output.preset == presetId
    ensures r.output.customWidth == preset.width && r.output.customHeight == preset.height
  {
    settings.(output := settings.output.(preset := presetId, customWidth := preset.width, customHeight := preset.height))
  }

  /** A batch entry is rendered as if its preset had been picked in the
      output panel, except that a Foundry preset does not force the
      horizontal wallpaper orientation here. */
  lemma EntryMatchesPresetChange(settings: StudioSettings, catalog: seq<Preset>, presetId: string)
    requires GetPresetById(catalog, presetId).Some?
    ensures EntrySettings(settings, presetId, GetPresetById(catalog, presetId).value)
         == OutputControls.HandlePresetChange(settings, catalog, presetId).(wallpaper := settings.wallpaper)
  {
  }

  /** Everything one batch export works from. */
  datatype BatchJob = BatchJob(image: ImageFile, settings: StudioSettings, catalog: seq<Preset>, compose: Compose)

  /** Position `k` of the selection names a catalog preset. */
  predicate KnownAt(job: BatchJob, k: int) {
    0 <= k < |job.settings.batch.selectedPresets| &&
    GetPresetById(job.catalog, job.settings.batch.selectedPresets[k]).Some?
  }

  function PresetAt(job: BatchJob, k: int): (p: Preset)
    requires KnownAt(job, k)
    ensures p.id == job.settings.batch.selectedPresets[k]
  {
    GetPresetById(job.catalog, job.settings.batch.selectedPresets[k]).value
  }

  function CanvasAt(job: BatchJob, k: int): Canvas
    requires KnownAt(job, k)
  {
    var entry := EntrySettings(job.settings, job.settings.batch.selectedPresets[k], PresetAt(job, k));
    job.compose(entry.wallpaper, entry.output)
  }

  /** The encoding of entry `k`, at the settings' own format and quality. */
  function OutcomeAt(job: BatchJob, k: int): Outcome
    requires KnownAt(job, k)
  {
    CanvasToBlob(CanvasAt(job, k).encode, job.settings.optimization.format, job.settings.optimization.quality)
  }

  /** The archive name of entry `k`. */
  function NameAt(job: BatchJob, k: int): string
    requires KnownAt(job, k)
  {
    var canvas := CanvasAt(job, k);
    GenerateFilename(job.image.name, Some(PresetAt(job, k)), canvas.width, canvas.height,
                     job.settings.optimization.format, WallpaperMode(job.settings.wallpaper))
  }

  /** Entries with the same name come from the same preset id, and so carry
      the same encoding. */
  lemma NameDeterminesEntry(job: BatchJob, j: int, k: int)
    requires KnownAt(job, j) && KnownAt(job, k)
    requires NameAt(job, j) == NameAt(job, k)
    ensures job.settings.batch.selectedPresets[j] == job.settings.batch.selectedPresets[k]
    ensures OutcomeAt(job, j) == OutcomeAt(job, k)
  {
    var ids := job.settings.batch.selectedPresets;
    if ids[j] != ids[k] {
      var cj, ck := CanvasAt(job, j), CanvasAt(job, k);
      PresetFilenamesDistinct(job.image.name, PresetAt(job, j), PresetAt(job, k), cj.width, cj.height,
                              ck.width, ck.height, job.settings.optimization.format, WallpaperMode(job.settings.wallpaper));
    }
  }

  /** The positions among the first `n` whose id names a catalog preset, in
      increasing order. */
  function KnownPositions(job: BatchJob, n: nat): (r: seq<int>)
    requires n <= |job.settings.batch.selectedPresets|
    ensures forall k :: k in r <==> 0 <= k < n && KnownAt(job, k)
    ensures forall a, b :: 0 <= a < b < |r| ==> r[a] < r[b]
    ensures forall a :: 0 <= a < |r| ==> 0 <= r[a] < n
  {
    if n == 0 then []
    else
      var prev := KnownPositions(job, n - 1);
      var last := if KnownAt(job, n - 1) then [n - 1] else [];
      assert forall k :: k in prev + last <==> k in prev || k in last;
      prev + last
  }

  /** The `onProgress(i + 1, total)` calls for the given positions. */
  function ProgressReports(positions: seq<int>, total: int): (r: seq<(int, int)>)
    ensures |r| == |positions|
    ensures forall a :: 0 <= a < |r| ==> r[a] == (positions[a] + 1, total)
  {
    seq(|positions|, a requires 0 <= a < |positions| => (positions[a] + 1, total))
  }

  /** The archive after the first `n` positions: one file per known entry,
      under its name, holding its encoding, and nothing else. */
  predicate ArchiveHolds(job: BatchJob, n: int, files: map<string, Blob>) {
    ArchiveHasEntries(job, n, files) && ArchiveOnlyEntries(job, n, files)
  }

  /** Every known entry among the first `n` is filed under its name. */
  predicate ArchiveHasEntries(job: BatchJob, n: int, files: map<string, Blob>) {
    forall k :: 0 <= k < n && KnownAt(job, k) ==>
      NameAt(job, k) in files && OutcomeAt(job, k) == Resolved(files[NameAt(job, k)])
  }

  /** Every file is named after a known entry among the first `n`. */
  predicate ArchiveOnlyEntries(job: BatchJob, n: int, files: map<string, Blob>) {
    forall f :: f in files ==> exists k :: 0 <= k < n && KnownAt(job, k) && NameAt(job, k) == f
  }

  /** Adding entry `n` keeps the archive in step. */
  lemma ArchiveAdd(job: BatchJob, n: int, files: map<string, Blob>)
    requires KnownAt(job, n) && OutcomeAt(job, n).Resolved?
    requires ArchiveHolds(job, n, files)
    ensures ArchiveHolds(job, n + 1, files[NameAt(job, n) := OutcomeAt(job, n).blob])
  {
    var files' := files[NameAt(job, n) := OutcomeAt(job, n).blob];
    ArchiveAddKeeps(job, n, files, files');
    ArchiveAddOnly(job, n, files, files');
  }

  /** Every entry filed before is still filed after adding entry `n`. */
  lemma ArchiveAddKeeps(job: BatchJob, n: int, files: map<string, Blob>, files': map<string, Blob>)
    requires KnownAt(job, n) && OutcomeAt(job, n).Resolved?
    requires ArchiveHasEntries(job, n, files)
    requires files' == files[NameAt(job, n) := OutcomeAt(job, n).blob]
    ensures ArchiveHasEntries(job, n + 1, files')
  {
    forall k | 0 <= k < n + 1 && KnownAt(job, k)
      ensures NameAt(job, k) in files' && OutcomeAt(job, k) == Resolved(files'[NameAt(job, k)])
    {
      if k != n && NameAt(job, k) == NameAt(job, n) {
        NameDeterminesEntry(job, k, n);
      }
    }
  }

  /** Adding entry `n` adds no file but its own. */
  lemma ArchiveAddOnly(job: BatchJob, n: int, files: map<string, Blob>, files': map<string, Blob>)
    requires KnownAt(job, n) && OutcomeAt(job, n).Resolved?
    requires ArchiveOnlyEntries(job, n, files)
    requires files' == files[NameAt(job, n) := OutcomeAt(job, n).blob]
    ensures ArchiveOnlyEntries(job, n + 1, files')
  {
    forall f | f in files'
      ensures exists k :: 0 <= k < n + 1 && KnownAt(job, k) && NameAt(job, k) == f
    {
      if f != NameAt(job, n) {
        var k :| 0 <= k < n && KnownAt(job, k) && NameAt(job, k) == f;
      }
    }
  }

  /** One more position adds one more report at the end. */
  lemma ProgressAppend(positions: seq<int>, p: int, total: int)
    ensures ProgressReports(positions + [p], total) == ProgressReports(positions, total) + [(p + 1, total)]
  {
    var a, b := ProgressReports(positions + [p], total), ProgressReports(positions, total) + [(p + 1, total)];
    assert |a| == |b|;
    forall j | 0 <= j < |a| ensures a[j] == b[j] {
      if j < |positions| {
        assert (positions + [p])[j] == positions[j];
      }
    }
  }

  /** The state of `exportBatch` after the first `n` positions: the progress
      calls made so far, the archive so far, and every known entry so far
      encoded. */
  predicate BatchProgress(job: BatchJob, n: nat, files: map<string, Blob>, progress: seq<(int, int)>)
    requires n <= |job.settings.batch.selectedPresets|
  {
    && progress == ProgressReports(KnownPositions(job, n), |job.settings.batch.selectedPresets|)
    && ArchiveHolds(job, n, files)
    && forall k :: 0 <= k < n && KnownAt(job, k) ==> OutcomeAt(job, k).Resolved?
  }

  /** An id the catalog does not have is skipped without a trace. */
  lemma BatchSkip(job: BatchJob, n: nat, files: map<string, Blob>, progress: seq<(int, int)>)
    requires n < |job.settings.batch.selectedPresets| && !KnownAt(job, n)
    requires BatchProgress(job, n, files, progress)
    ensures BatchProgress(job, n + 1, files, progress)
  {
    assert KnownPositions(job, n + 1) == KnownPositions(job, n);
  }

  /** A known entry that encodes is added to the archive and reported. */
  lemma BatchAdd(job: BatchJob, n: nat, files: map<string, Blob>, progress: seq<(int, int)>)
    requires n < |job.settings.batch.selectedPresets| && KnownAt(job, n) && OutcomeAt(job, n).Resolved?
    requires BatchProgress(job, n, files, progress)
    ensures BatchProgress(job, n + 1, files[NameAt(job, n) := OutcomeAt(job, n).blob],
                          progress + [(n + 1, |job.settings.batch.selectedPresets|)])
  {
    ArchiveAdd(job, n, files);
    assert KnownPositions(job, n + 1) == KnownPositions(job, n) + [n];
    ProgressAppend(KnownPositions(job, n), n, |job.settings.batch.selectedPresets|);
  }

  /** The loop body's entry at position `n` is the one the job describes. */
  lemma EntryAt(job: BatchJob, n: nat, preset: Preset)
    requires n < |job.settings.batch.selectedPresets|
    requires GetPresetById(job.catalog, job.settings.batch.selectedPresets[n]) == Some(preset)
    ensures KnownAt(job, n) && PresetAt(job, n) == preset
    ensures var entry := EntrySettings(job.settings, job.settings.batch.selectedPresets[n], preset);
      var canvas := job.compose(entry.wallpaper, entry.output);
      && canvas == CanvasAt(job, n)
      && CanvasToBlob(canvas.encode, job.settings.optimization.format, job.settings.optimization.quality)
         == OutcomeAt(job, n)
      && GenerateFilename(job.image.name, Some(preset), canvas.width, canvas.height,
                          job.settings.optimization.format, WallpaperMode(job.settings.wallpaper))
         == NameAt(job, n)
  {
  }

  /** Every known entry encodes. */
  ghost predicate AllResolved(job: BatchJob) {
    forall k :: KnownAt(job, k) ==> OutcomeAt(job, k).Resolved?
  }

  /** `failure` is the outcome of the first known entry that does not
      encode. */
  ghost predicate FirstFailure(job: BatchJob, failure: Outcome) {
    && !failure.Resolved?
    && exists k :: KnownAt(job, k) && OutcomeAt(job, k) == failure &&
         forall j :: 0 <= j < k && KnownAt(job, j) ==> OutcomeAt(job, j).Resolved?
  }

  /** A known entry that does not encode, after entries that all did, is the
      first failure. */
  lemma BatchStops(job: BatchJob, n: nat, files: map<string, Blob>, progress: seq<(int, int)>)
    requires n < |job.settings.batch.selectedPresets| && KnownAt(job, n) && !OutcomeAt(job, n).Resolved?
    requires BatchProgress(job, n, files, progress)
    ensures FirstFailure(job, OutcomeAt(job, n)) && !AllResolved(job)
  {
  }

  /** How `exportBatch` ends: the archive's files and the progress calls
      made, or the encoding attempt that did not produce a Blob. */
  datatype BatchOutcome = Archive(files: map<string, Blob>, progress: seq<(int, int)>) | BatchFailed(failure: Outcome)

  /** `exportBatch`: for each selected id in order, skip it when the catalog
      does not have it, otherwise render the entry, encode it, add it to the
      archive under its generated name and report progress `(i + 1, total)`,
      where `total` counts every selected id, skipped ones included. */
  method ExportBatch(image: ImageFile, settings: StudioSettings, catalog: seq<Preset>, compose: Compose)
    returns (r: BatchOutcome)
    ensures r.Archive? ==> BatchProgress(BatchJob(image, settings, catalog, compose), |settings.batch.selectedPresets|, r.files, r.progress)
    ensures r.BatchFailed? ==> FirstFailure(BatchJob(image, settings, catalog, compose), r.failure)
    ensures AllResolved(BatchJob(image, settings, catalog, compose)) ==> r.Archive?
  {
    var job := BatchJob(image, settings, catalog, compose);
    var presetIds := settings.batch.selectedPresets;
    var total := |presetIds|;
    var files: map<string, Blob> := map[];
    var progress: seq<(int, int)> := [];
    var i := 0;
    while i < |presetIds|
      invariant 0 <= i <= |presetIds|
      invariant BatchProgress(job, i, files, progress)
    {
      var presetId := presetIds[i];
      var preset := GetPresetById(catalog, presetId);
      if preset.None? {
        BatchSkip(job, i, files, progress);
      } else {
        EntryAt(job, i, preset.value);
        var batchSettings := EntrySettings(settings, presetId, preset.value);
        var canvas := compose(batchSettings.wallpaper, batchSettings.output);
        var outcome := CanvasToBlob(canvas.encode, settings.optimization.format, settings.optimization.quality);
        if !outcome.Resolved? {
          BatchStops(job, i, files, progress);
          return BatchFailed(outcome);
        }
        var filename := GenerateFilename(image.name, preset, canvas.width, canvas.height,
                                         settings.optimization.format, WallpaperMode(settings.wallpaper));
        BatchAdd(job, i, files, progress);
        files := files[filename := outcome.blob];
        progress := progress + [(i + 1, total)];
      }
      i := i + 1;
    }
    return Archive(files, progress);
  }
}

=== FILE: file_validation.dfy ===
/** Upload checks and filename sanitising (src/lib/security/fileValidation.ts):
    an ordered chain of size, extension, MIME type and file-signature checks,
    and a character-level rewrite of user-supplied filenames. */
module FileValidation {
  import opened Util

  /** `MAX_FILE_SIZE`: 50 MiB. */
  const MaxFileSize: nat := 50 * 1024 * 1024

  /** `ALLOWED_MIME_TYPES`. */
  const AllowedMimeTypes: seq<string> := ["image/png", "image/jpeg", "image/webp", "image/avif", "image/bmp"]

  /** The PNG file signature, as section 5.2 of the W3C PNG Specification
      (ISO/IEC 15948) fixes it: 137 80 78 71 13 10 26 10. */
  const PngSignature: seq<Byte> := [0x89, 0x50, 0x4e, 0x47, 0x0d, 0x0a, 0x1a, 0x0a]

  /** `FILE_SIGNATURES`: the accepted leading bytes per MIME type. */
  const FileSignatures: map<string, seq<seq<Byte>>> := map[
    "image/png" := [PngSignature],
    "image/jpeg" := [[0xff, 0xd8, 0xff, 0xe0], [0xff, 0xd8, 0xff, 0xe1], [0xff, 0xd8, 0xff, 0xe2], [0xff, 0xd8, 0xff, 0xe3]],
    "image/webp" := [[0x52, 0x49, 0x46, 0x46]],
    "image/avif" := [[0x00, 0x00, 0x00]],
    "image/bmp" := [[0x42, 0x4d]]
  ]

  /** `BLOCKED_EXTENSIONS`. */
  const BlockedExtensions: seq<string> :=
    [".svg", ".html", ".htm", ".xml", ".js", ".mjs", ".cjs", ".php", ".exe", ".sh", ".bat", ".cmd"]

  /** How many leading bytes the signature check reads. */
  const SignatureWindow: nat := 16

  /** The parts of a browser `File` the checks read. */
  datatype UploadFile = UploadFile(name: string, mimeType: string, content: seq<Byte>)

  datatype ValidationError =
    | TooLarge            // larger than 50 MiB
    | Empty               // zero bytes
    | BlockedExtension(extension: string)
    | UnsupportedFormat   // MIME type not on the allow-list
    | UnsupportedType     // no signatures for the MIME type
    | SignatureMismatch   // no signature matches the leading bytes

  datatype Verdict = Accepted | Refused(error: ValidationError)

  // ---------------------------------------------------------------------
  // Extension check

  /** `toLowerCase` on ASCII letters. */
  function ToLowerChar(c: char): (d: char)
    ensures 'A' <= c <= 'Z' ==> 'a' <= d <= 'z' && d as int == c as int + 32
    ensures !('A' <= c <= 'Z') ==> d == c
  {
    if 'A' <= c <= 'Z' then (c as int + 32) as char else c
  }

  function ToLower(s: string): (r: string)
    ensures |r| == |s|
    ensures forall i :: 0 <= i < |s| ==> r[i] == ToLowerChar(s[i])
  {
    seq(|s|, i requires 0 <= i < |s| => ToLowerChar(s[i]))
  }

  /** `name.toLowerCase().match(/\.[^.]+$/)?.[0]`: the lower-cased text from
      the last dot on, when at least one character follows that dot. */
  function LowerExtension(name: string): (r: Option<string>)
    ensures r.Some? ==>
      && 2 <= |r.value| <= |name| && r.value[0] == '.'
      && (forall j :: 1 <= j < |r.value| ==> r.value[j] != '.')
      && r.value == ToLower(name)[|name| - |r.value|..]
    ensures r.None? <==> (forall j :: 0 <= j < |name| ==> name[j] != '.') || name[|name| - 1] == '.'
  {
    var lower := ToLower(name);
    match LastDot(lower, |lower|)
    case None => None
    case Some(i) => if i + 1 < |lower| then Some(lower[i..]) else None
  }

  /** The extension is found whatever the stem, and whatever the case it
      was typed in. */
  lemma LowerExtensionOf(stem: string, ext: string)
    requires |ext| > 0 && forall j :: 0 <= j < |ext| ==> ext[j] != '.'
    ensures LowerExtension(stem + "." + ext) == Some("." + ToLower(ext))
  {
    var name := stem + "." + ext;
    var lower := ToLower(name);
    var want := "." + ToLower(ext);
    assert name[|stem|] == '.';
    assert name[|name| - 1] == ext[|ext| - 1];
    assert lower[|stem|..] == want by {
      forall k | 0 <= k < |want| ensures lower[|stem| + k] == want[k] {
        if k > 0 {
          assert name[|stem| + k] == ext[k - 1];
        }
      }
    }
    var e := LowerExtension(name).value;
    var a := |name| - |e|;
    forall j | a < j < |lower| ensures lower[j] != '.' {
      assert lower[j] == e[j - a];
    }
    forall j | |stem| < j < |lower| ensures lower[j] != '.' {
      assert name[j] == ext[j - |stem| - 1];
    }
    DotSuffixUnique(lower, a, |stem|);
  }

  /** Two dots with no dot after either are the same dot. */
  lemma DotSuffixUnique(s: string, a: int, b: int)
    requires 0 <= a < |s| && 0 <= b < |s| && s[a] == '.' && s[b] == '.'
    requires forall j :: a < j < |s| ==> s[j] != '.'
    requires forall j :: b < j < |s| ==> s[j] != '.'
    ensures a == b
  {
  }

  /** Upper-case spellings of a blocked extension are caught. */
  lemma UpperCaseExtensionSeen(stem: string)
    ensures LowerExtension(stem + ".SVG") == Some(".svg")
  {
    assert stem + ".SVG" == stem + "." + "SVG";
    LowerExtensionOf(stem, "SVG");
    LowerSvg();
  }

  lemma LowerSvg()
    ensures "." + ToLower("SVG") == ".svg"
  {
    var lowered := ToLower("SVG");
    assert lowered[0] == ToLowerChar('S') == 's';
    assert lowered[1] == ToLowerChar('V') == 'v';
    assert lowered[2] == ToLowerChar('G') == 'g';
  }

  // ---------------------------------------------------------------------
  // Signature check

  /** `signature.every((byte, index) => bytes[index] === byte)`: past the
      end of `bytes` the element is undefined and the comparison fails, so
      the signature has to fit in `bytes`. */
  predicate MatchesSignature(bytes: seq<Byte>, signature: seq<Byte>) {
    |signature| <= |bytes| && forall index :: 0 <= index < |signature| ==> bytes[index] == signature[index]
  }

  /** `validateMagicBytes`: read the first 16 bytes and accept when one of
      the MIME type's signatures matches them. */
  function ValidateMagicBytes(file: UploadFile): (r: Verdict)
    ensures r == Refused(UnsupportedType) <==> file.mimeType !in FileSignatures
    ensures r.Accepted? <==>
      file.mimeType in FileSignatures &&
      exists i :: 0 <= i < |FileSignatures[file.mimeType]| && FileSignatures[file.mimeType][i] <= file.content
    ensures r.Accepted? || r == Refused(UnsupportedType) || r == Refused(SignatureMismatch)
  {
    if file.mimeType !in FileSignatures then Refused(UnsupportedType)
    else
      var signatures := FileSignatures[file.mimeType];
      var head := file.content[..if |file.content| < SignatureWindow then |file.content| else SignatureWindow];
      SignaturesFitWindow(file.mimeType);
      if exists i :: 0 <= i < |signatures| && MatchesSignature(head, signatures[i]) then
        ghost var i :| 0 <= i < |signatures| && MatchesSignature(head, signatures[i]);
        MatchIsPrefix(head, file.content, signatures[i]);
        Accepted
      else
        assert forall i :: 0 <= i < |signatures| ==> !(signatures[i] <= file.content) by {
          forall i | 0 <= i < |signatures| ensures !(signatures[i] <= file.content) {
            MatchIsPrefix(head, file.content, signatures[i]);
          }
        }
        Refused(SignatureMismatch)
  }

  /** No signature is longer than the bytes the check reads. */
  lemma SignaturesFitWindow(mime: string)
    requires mime in FileSignatures
    ensures forall i :: 0 <= i < |FileSignatures[mime]| ==> |FileSignatures[mime][i]| <= SignatureWindow
  {
  }

  /** Matching the first 16 bytes is being a prefix of the whole file, for a
      signature that fits in those 16 bytes. */
  lemma MatchIsPrefix(head: seq<Byte>, content: seq<Byte>, signature: seq<Byte>)
    requires head <= content
    requires |signature| <= SignatureWindow
    requires |head| == if |content| < SignatureWindow then |content| else SignatureWindow
    ensures MatchesSignature(head, signature) <==> signature <= content
  {
    if MatchesSignature(head, signature) {
      assert signature == content[..|signature|] by {
        forall index | 0 <= index < |signature| ensures signature[index] == content[index] {
          assert head[index] == content[index];
        }
      }
    }
    if signature <= content {
      forall index | 0 <= index < |signature| ensures head[index] == signature[index] {
        assert content[index] == signature[index];
      }
    }
  }

  /** Every MIME type the allow-list admits has signatures, so the magic-byte
      check never reports an unsupported type after the allow-list. */
  lemma AllowedTypesHaveSignatures()
    ensures forall m :: m in AllowedMimeTypes <==> m in FileSignatures
  {
  }

  /** A file shorter than every signature of its type fails the check. */
  lemma ShortFileFails(file: UploadFile)
    requires file.mimeType in FileSignatures
    requires forall i :: 0 <= i < |FileSignatures[file.mimeType]| ==> |file.content| < |FileSignatures[file.mimeType][i]|
    ensures ValidateMagicBytes(file) == Refused(SignatureMismatch)
  {
  }

  // ---------------------------------------------------------------------
  // The whole chain

  /** `validateFile`: size, then emptiness, then the extension, then the MIME
      allow-list, then the file signature; the first failing check decides. */
  function ValidateFile(file: UploadFile): (r: Verdict)
    ensures r == Refused(TooLarge) <==> |file.content| > MaxFileSize
    ensures r == Refused(Empty) <==> |file.content| == 0
    ensures r.Refused? && r.error.BlockedExtension? <==>
      0 < |file.content| <= MaxFileSize &&
      LowerExtension(file.name).Some? && LowerExtension(file.name).value in BlockedExtensions
    ensures r.Refused? && r.error.BlockedExtension? ==> r.error.extension == LowerExtension(file.name).value
    ensures r == Refused(UnsupportedFormat) <==>
      && 0 < |file.content| <= MaxFileSize
      && !(LowerExtension(file.name).Some? && LowerExtension(file.name).value in BlockedExtensions)
      && file.mimeType !in AllowedMimeTypes
    ensures r.Accepted? <==>
      && 0 < |file.content| <= MaxFileSize
      && !(LowerExtension(file.name).Some? && LowerExtension(file.name).value in BlockedExtensions)
      && file.mimeType in AllowedMimeTypes
      && ValidateMagicBytes(file).Accepted?
    ensures r != Refused(UnsupportedType)
  {
    if |file.content| > MaxFileSize then Refused(TooLarge)
    else if |file.content| == 0 then Refused(Empty)
    else
      var extension := LowerExtension(file.name);
      if extension.Some? && extension.value in BlockedExtensions then Refused(BlockedExtension(extension.value))
      else if file.mimeType !in AllowedMimeTypes then Refused(UnsupportedFormat)
      else
        AllowedTypesHaveSignatures();
        ValidateMagicBytes(file)
  }

  /** A well-formed PNG upload under the size limit, with a harmless name,
      passes every check. */
  lemma PngUploadAccepted(name: string, content: seq<Byte>)
    requires PngSignature <= content && |content| <= MaxFileSize
    requires LowerExtension(name) == Some(".png")
    ensures ValidateFile(UploadFile(name, "image/png", content)) == Accepted
  {
    assert FileSignatures["image/png"][0] == PngSignature;
  }

  // ---------------------------------------------------------------------
  // sanitizeFilename

  /** `[a-zA-Z0-9._-]`. */
  predicate SafeChar(c: char) {
    ('a' <= c <= 'z') || ('A' <= c <= 'Z') || ('0' <= c <= '9') || c == '.' || c == '_' || c == '-'
  }

  predicate AllSafe(s: string) {
    forall i :: 0 <= i < |s| ==> SafeChar(s[i])
  }

  predicate NoDoubleDot(s: string) {
    forall i :: 0 <= i < |s| - 1 ==> !(s[i] == '.' && s[i + 1] == '.')
  }

  const MaxFilenameLength: nat := 255

  /** What the sanitiser promises about its result. */
  predicate IsSanitized(s: string) {
    && AllSafe(s)
    && NoDoubleDot(s)
    && (|s| > 0 ==> s[0] != '.')
    && |s| <= MaxFilenameLength
  }

  /** `.replace(/[^a-zA-Z0-9._-]/g, '_')`. */
  function ReplaceUnsafe(s: string): (r: string)
    ensures |r| == |s| && AllSafe(r)
    ensures forall i :: 0 <= i < |s| ==> (SafeChar(s[i]) ==> r[i] == s[i]) && (!SafeChar(s[i]) ==> r[i] == '_')
  {
    seq(|s|, i requires 0 <= i < |s| => if SafeChar(s[i]) then s[i] else '_')
  }

  /** The number of dots `s` starts with. */
  function LeadingDots(s: string): (n: nat)
    ensures n <= |s|
    ensures forall i :: 0 <= i < n ==> s[i] == '.'
    ensures n < |s| ==> s[n] != '.'
  {
    if |s| == 0 || s[0] != '.' then 0 else 1 + LeadingDots(s[1..])
  }

  /** `.replace(/^\.+/, '')`. */
  function StripLeadingDots(s: string): (r: string)
    ensures r == s[LeadingDots(s)..]
    ensures |r| > 0 ==> r[0] != '.'
  {
    s[LeadingDots(s)..]
  }

  /** `.replace(/\.{2,}/g, '.')`: every run of dots becomes a single dot
      (a run of one is already one). */
  function CollapseDots(s: string): (r: string)
    ensures NoDoubleDot(r)
    ensures |r| <= |s|
    ensures |r| > 0 <==> |s| > 0
    ensures |r| > 0 ==> (r[0] == '.' <==> s[0] == '.')
    ensures forall c :: c in r ==> c in s
    decreases |s|
  {
    if |s| == 0 then []
    else if s[0] == '.' then
      var rest := StripLeadingDots(s);
      var tail := CollapseDots(rest);
      assert forall c :: c in rest ==> c in s;
      "." + tail
    else
      [s[0]] + CollapseDots(s[1..])
  }

  /** `.slice(0, 255)`. */
  function Truncate(s: string): (r: string)
    ensures r <= s && |r| <= MaxFilenameLength
    ensures |s| <= MaxFilenameLength ==> r == s
  {
    if |s| <= MaxFilenameLength then s else s[..MaxFilenameLength]
  }

  /** `sanitizeFilename`: unsafe characters to `_`, runs of dots to one dot,
      leading dots removed, at most 255 characters. */
  function SanitizeFilename(filename: string): (r: string)
    ensures IsSanitized(r)
    ensures '/' !in r
  {
    var collapsed := CollapseDots(ReplaceUnsafe(filename));
    var stripped := StripLeadingDots(collapsed);
    var r := Truncate(stripped);
    assert AllSafe(collapsed) by {
      forall i | 0 <= i < |collapsed| ensures SafeChar(collapsed[i]) {
        assert collapsed[i] in ReplaceUnsafe(filename);
      }
    }
    assert r == stripped[..|r|];
    r
  }

  /** A safe name is left alone by each stage of the pipeline. */
  lemma ReplaceUnsafeOfSafe(s: string)
    requires AllSafe(s)
    ensures ReplaceUnsafe(s) == s
  {
  }

  lemma {:induction false} CollapseDotsOfSingleDots(s: string)
    requires NoDoubleDot(s)
    ensures CollapseDots(s) == s
    decreases |s|
  {
    if |s| > 0 {
      assert NoDoubleDot(s[1..]) by {
        forall i | 0 <= i < |s[1..]| - 1 ensures !(s[1..][i] == '.' && s[1..][i + 1] == '.') {
          assert s[1..][i] == s[i + 1] && s[1..][i + 1] == s[i + 2];
        }
      }
      if s[0] == '.' {
        assert |s| > 1 ==> s[1] != '.';
        assert LeadingDots(s) == 1 by {
          assert LeadingDots(s) == 1 + LeadingDots(s[1..]);
        }
        assert StripLeadingDots(s) == s[1..];
        CollapseDotsOfSingleDots(s[1..]);
      } else {
        CollapseDotsOfSingleDots(s[1..]);
      }
      assert s == [s[0]] + s[1..];
    }
  }

  /** A doubled dot collapses like a single one, wherever it stands; with
      `CollapseDotsOfSingleDots` this fixes the output on every input: each
      run of dots becomes one dot and every other character stays, in order. */
  lemma {:induction false} CollapseDotsPair(a: string, b: string)
    ensures CollapseDots(a + ".." + b) == CollapseDots(a + "." + b)
    decreases |a|
  {
    var two, one := a + ".." + b, a + "." + b;
    if LeadingDots(a) == |a| {
      AllDotsPrefix(a, "..", b);
      AllDotsPrefix(a, ".", b);
      assert two[0] == '.' && one[0] == '.';
    } else if a[0] != '.' {
      assert two[1..] == a[1..] + ".." + b && one[1..] == a[1..] + "." + b;
      CollapseDotsPair(a[1..], b);
    } else {
      var n := LeadingDots(a);
      LeadingDotsAppend(a, ".." + b);
      LeadingDotsAppend(a, "." + b);
      assert two == a + (".." + b) && one == a + ("." + b);
      assert StripLeadingDots(two) == a[n..] + ".." + b;
      assert StripLeadingDots(one) == a[n..] + "." + b;
      CollapseDotsPair(a[n..], b);
    }
  }

  /** A run of dots followed by one or two more dots is stripped whole. */
  lemma AllDotsPrefix(a: string, dots: string, b: string)
    requires LeadingDots(a) == |a|
    requires dots == "." || dots == ".."
    ensures StripLeadingDots(a + dots + b) == StripLeadingDots(b)
  {
    var p := a + dots;
    DotsAreLeading(dots);
    LeadingDotsAppend(a, dots);
    AllDotsStrip(p, b);
    assert a + dots + b == p + b;
  }

  lemma DotsAreLeading(dots: string)
    requires dots == "." || dots == ".."
    ensures LeadingDots(dots) == |dots|
  {
    if dots == ".." {
      assert dots[1..] == ".";
    }
  }

  lemma AllDotsStrip(p: string, b: string)
    requires LeadingDots(p) == |p|
    ensures StripLeadingDots(p + b) == StripLeadingDots(b)
  {
    var k := LeadingDots(b);
    LeadingDotsAppend(p, b);
    assert LeadingDots(p + b) == |p| + k;
    SuffixOfAppend(p, b, k);
    assert StripLeadingDots(p + b) == (p + b)[|p| + k..];
  }

  lemma SuffixOfAppend(p: string, b: string, k: nat)
    requires k <= |b|
    ensures (p + b)[|p| + k..] == b[k..]
  {
  }

  /** Leading dots of a concatenation: those of the first part, and when that
      part is all dots, those of the second part after them. */
  lemma {:induction false} LeadingDotsAppend(p: string, s: string)
    ensures LeadingDots(p) < |p| ==> LeadingDots(p + s) == LeadingDots(p)
    ensures LeadingDots(p) == |p| ==> LeadingDots(p + s) == |p| + LeadingDots(s)
    decreases |p|
  {
    if |p| > 0 {
      assert (p + s)[0] == p[0];
      if p[0] == '.' {
        assert (p + s)[1..] == p[1..] + s;
        LeadingDotsAppend(p[1..], s);
      }
    } else {
      assert p + s == s;
    }
  }

  /** A name is its own sanitised form exactly when it already satisfies
      everything the sanitiser promises. */
  lemma SanitizeFixpoint(s: string)
    ensures SanitizeFilename(s) == s <==> IsSanitized(s)
  {
    if IsSanitized(s) {
      ReplaceUnsafeOfSafe(s);
      CollapseDotsOfSingleDots(s);
      assert LeadingDots(s) == 0;
    }
  }

  /** Sanitising twice is sanitising once. */
  lemma SanitizeIdempotent(s: string)
    ensures SanitizeFilename(SanitizeFilename(s)) == SanitizeFilename(s)
  {
    SanitizeFixpoint(SanitizeFilename(s));
  }

  /** A path-traversal attempt comes out as a plain name. */
  lemma TraversalNeutralised()
    ensures SanitizeFilename("../etc") == "_etc"
  {
    assert ReplaceUnsafe("../etc") == ".._etc";
    assert LeadingDots(".._etc") == 2;
    assert StripLeadingDots(".._etc") == "_etc";
    assert CollapseDots("_etc") == "_etc" by {
      CollapseDotsOfSingleDots("_etc");
    }
    assert CollapseDots(".._etc") == "._etc";
    assert LeadingDots("._etc") == 1;
  }
}

=== FILE: output_controls.dfy ===
/** The output-size panel (src/components/studio/OutputControls.tsx): typing a
    width or height and picking a preset, as transformations of the studio
    settings. The local text-field state it also keeps is display only. */
module OutputControls {
  import opened Util
  import opened Types
  import opened Studio

  datatype Side = Width | Height

  /** `handleDimensionChange`: a non-positive or unparsable entry changes
      nothing. Otherwise the edited side takes the value, the preset becomes
      "custom", and with the aspect lock on, wallpaper mode off and an image
      loaded the other side follows the image's aspect ratio, rounded;
      otherwise the other side keeps its current value. */
  function HandleDimensionChange(settings: StudioSettings, image: Option<ImageFile>, side: Side, parsed: Option<int>): (r: StudioSettings)
    ensures parsed.None? || parsed.value <= 0 ==> r == settings
    ensures parsed.Some? && parsed.value > 0 ==>
      && r.(output := settings.output) == settings
      && r.output.preset == "custom"
      && r.output.(preset := settings.output.preset, customWidth := settings.output.customWidth,
                   customHeight := settings.output.customHeight) == settings.output
    ensures parsed.Some? && parsed.value > 0 && side == Width ==> r.output.customWidth == parsed.value
    ensures parsed.Some? && parsed.value > 0 && side == Height ==> r.output.customHeight == parsed.value
    ensures parsed.Some? && parsed.value > 0 && FollowsImage(settings, image) && side == Width ==>
      var exact := (parsed.value * image.value.height) as real / image.value.width as real;
      exact - 0.5 < r.output.customHeight as real <= exact + 0.5
    ensures parsed.Some? && parsed.value > 0 && FollowsImage(settings, image) && side == Height ==>
      var exact := (parsed.value * image.value.width) as real / image.value.height as real;
      exact - 0.5 < r.output.customWidth as real <= exact + 0.5
    ensures parsed.Some? && parsed.value > 0 && !FollowsImage(settings, image) ==>
      (side == Width ==> r.output.customHeight == settings.output.customHeight) &&
      (side == Height ==> r.output.customWidth == settings.output.customWidth)
  {
    var n := if parsed.Some? then parsed.value else 0;
    if n <= 0 then settings
    else
      var output := settings.output;
      var w := if side == Width then n else output.customWidth;
      var h := if side == Height then n else output.customHeight;
      var (w', h') :=
        if FollowsImage(settings, image) then
          var ratio := image.value.width as real / image.value.height as real;
          if side == Width then
            assert n as real / ratio == (n * image.value.height) as real / image.value.width as real;
            (w, Round(n as real / ratio))
          else
            assert n as real * ratio == (n * image.value.width) as real / image.value.height as real;
            (Round(n as real * ratio), h)
        else (w, h);
      settings.(output := output.(preset := "custom", customWidth := w', customHeight := h'))
  }

  /** The aspect lock follows the image only when wallpaper mode, which
      dictates its own ratio, is off and an image is loaded. */
  predicate FollowsImage(settings: StudioSettings, image: Option<ImageFile>) {
    settings.output.maintainAspect && !settings.wallpaper.enabled && image.Some?
  }

  /** `handlePresetChange`: a catalog preset sets the preset id and its size;
      a Foundry preset with wallpaper mode on also forces the horizontal
      orientation. An unknown id only switches to "custom". */
  function HandlePresetChange(settings: StudioSettings, catalog: seq<Preset>, presetId: string): (r: StudioSettings)
    ensures r.preprocessing == settings.preprocessing && r.optimization == settings.optimization
    ensures r.batch == settings.batch
    ensures r.output.maintainAspect == settings.output.maintainAspect && r.output.fitMode == settings.output.fitMode
    ensures GetPresetById(catalog, presetId).Some? ==>
      var p := GetPresetById(catalog, presetId).value;
      && r.output.preset == presetId
      && r.output.customWidth == p.width && r.output.customHeight == p.height
      && (p.category == "foundry" && settings.wallpaper.enabled ==>
            r.wallpaper == settings.wallpaper.(orientation := "horizontal"))
      && (!(p.category == "foundry" && settings.wallpaper.enabled) ==> r.wallpaper == settings.wallpaper)
    ensures GetPresetById(catalog, presetId).None? ==>
      r == settings.(output := settings.output.(preset := "custom"))
  {
    match GetPresetById(catalog, presetId)
    case Some(p) =>
      var wallpaper :=
        if p.category == "foundry" && settings.wallpaper.enabled
        then settings.wallpaper.(orientation := "horizontal")
        else settings.wallpaper;
      settings.(output := settings.output.(preset := presetId, customWidth := p.width, customHeight := p.height),
                wallpaper := wallpaper)
    case None =>
      settings.(output := settings.output.(preset := "custom"))
  }

  /** Picking the same preset twice is the same as picking it once. */
  lemma PresetChangeIdempotent(settings: StudioSettings, catalog: seq<Preset>, presetId: string)
    ensures var once := HandlePresetChange(settings, catalog, presetId);
      HandlePresetChange(once, catalog, presetId) == once
  {
  }

  /** Without the aspect lock, typing the same value twice changes nothing
      the second time. */
  lemma DimensionChangeIdempotentUnlocked(settings: StudioSettings, image: Option<ImageFile>, side: Side, parsed: Option<int>)
    requires !FollowsImage(settings, image)
    ensures var once := HandleDimensionChange(settings, image, side, parsed);
      HandleDimensionChange(once, image, side, parsed) == once
  {
  }
}

=== FILE: presets.dfy ===
/** The static catalogs of the studio: the six export formats and the
    resolution presets offered by the resize panel, with the two display
    helpers that live beside them (src/lib/image/presets.ts). */
module Presets {
  import opened Util

  // ---------------------------------------------------------------------
  // Export formats

  datatype FormatOption = FormatOption(
    id: string,
    name: string,
    mimeType: string,
    extension: string,
    supportsQuality: bool)

  const FormatOptions: seq<FormatOption> := [
    FormatOption("png", "PNG", "image/png", ".png", false),
    FormatOption("jpg", "JPG", "image/jpeg", ".jpg", true),
    FormatOption("webp", "WebP", "image/webp", ".webp", true),
    FormatOption("ico", "ICO", "image/x-icon", ".ico", false),
    FormatOption("bmp", "BMP", "image/bmp", ".bmp", false),
    FormatOption("avif", "AVIF", "image/avif", ".avif", true)
  ]

  /** `FORMAT_OPTIONS.find(f => f.id === id)`: the first entry with that id. */
  function FindFormat(id: string): (r: Option<FormatOption>)
    ensures r.Some? ==> r.value in FormatOptions && r.value.id == id
    ensures r.None? <==> forall i :: 0 <= i < |FormatOptions| ==> FormatOptions[i].id != id
  {
    FindById(FormatOptions, (f: FormatOption) => f.id, id)
  }

  /** The ids for which the format table declares a lossy quality knob. */
  predicate IsQualityFormat(id: string) {
    id == "jpg" || id == "webp" || id == "avif"
  }

  lemma FormatTableShape()
    ensures |FormatOptions| == 6
    ensures forall i, j :: 0 <= i < j < |FormatOptions| ==> FormatOptions[i].id != FormatOptions[j].id
    ensures forall f :: f in FormatOptions ==> f.extension == "." + f.id
    ensures forall f :: f in FormatOptions ==> (f.supportsQuality <==> IsQualityFormat(f.id))
  {
  }

  /** Looking up a format succeeds exactly for the six ids, and each id has
      its fixed MIME type. */
  lemma FindFormatTable(id: string)
    ensures FindFormat(id).Some? <==>
      id in {"png", "jpg", "webp", "ico", "bmp", "avif"}
    ensures id == "png" ==> FindFormat(id).value.mimeType == "image/png"
    ensures id == "jpg" ==> FindFormat(id).value.mimeType == "image/jpeg"
    ensures id == "webp" ==> FindFormat(id).value.mimeType == "image/webp"
    ensures id == "ico" ==> FindFormat(id).value.mimeType == "image/x-icon"
    ensures id == "bmp" ==> FindFormat(id).value.mimeType == "image/bmp"
    ensures id == "avif" ==> FindFormat(id).value.mimeType == "image/avif"
    ensures FindFormat(id).Some? ==>
      (FindFormat(id).value.supportsQuality <==> IsQualityFormat(id))
  {
    if id == "png" { FindFormatAt(0); }
    else if id == "jpg" { FindFormatAt(1); }
    else if id == "webp" { FindFormatAt(2); }
    else if id == "ico" { FindFormatAt(3); }
    else if id == "bmp" { FindFormatAt(4); }
    else if id == "avif" { FindFormatAt(5); }
  }

  /** Looking up the id of entry `i` finds entry `i`. */
  lemma FindFormatAt(i: int)
    requires 0 <= i < |FormatOptions|
    ensures FindFormat(FormatOptions[i].id) == Some(FormatOptions[i])
  {
    FormatTableShape();
  }

  // ---------------------------------------------------------------------
  // Resolution presets

  datatype ResolutionPreset = ResolutionPreset(id: string, name: string, width: int, height: int)

  const ResolutionPresets: seq<ResolutionPreset> := [
    ResolutionPreset("hd", "HD (720p)", 1280, 720),
    ResolutionPreset("fhd", "Full HD (1080p)", 1920, 1080),
    ResolutionPreset("qhd", "QHD (1440p)", 2560, 1440),
    ResolutionPreset("4k", "4K (2160p)", 3840, 2160),
    ResolutionPreset("instagram", "Instagram", 1080, 1080),
    ResolutionPreset("twitter", "Twitter Header", 1500, 500),
    ResolutionPreset("youtube", "YouTube Thumb", 1280, 720),
    ResolutionPreset("foundry-20x20", "Foundry 20×20", 2000, 2000),
    ResolutionPreset("foundry-30x30", "Foundry 30×30", 3000, 3000),
    ResolutionPreset("foundry-40x40", "Foundry 40×40", 4000, 4000),
    ResolutionPreset("foundry-32x18", "Foundry 32×18 (16:9)", 3200, 1800),
    ResolutionPreset("foundry-64x32", "Foundry 64×32 (16:9)", 6400, 3200)
  ]

  /** `RESOLUTION_PRESETS.find(p => p.id === id)` */
  function FindResolutionPreset(id: string): (r: Option<ResolutionPreset>)
    ensures r.Some? ==> r.value in ResolutionPresets && r.value.id == id
    ensures r.None? <==> forall i :: 0 <= i < |ResolutionPresets| ==> ResolutionPresets[i].id != id
  {
    FindById(ResolutionPresets, (p: ResolutionPreset) => p.id, id)
  }

  lemma ResolutionTableShape()
    ensures forall i, j :: 0 <= i < j < |ResolutionPresets| ==>
      ResolutionPresets[i].id != ResolutionPresets[j].id
    ensures forall p :: p in ResolutionPresets ==> p.width > 0 && p.height > 0
    ensures forall p :: p in ResolutionPresets ==> p.id != "original"
  {
  }

  /** The id a Foundry VTT map of `columns` by `rows` grid squares carries. */
  function FoundryId(columns: nat, rows: nat): string {
    "foundry-" + NatToString(columns) + "x" + NatToString(rows)
  }

  predicate IsFoundryId(id: string) {
    |id| >= 8 && id[..8] == "foundry-"
  }

  /** Every Foundry preset is named after its grid and measures 100 pixels per
      grid square. */
  lemma FoundryPresetsAreGridSized()
    ensures forall i :: 0 <= i < |ResolutionPresets| && IsFoundryId(ResolutionPresets[i].id) ==>
      && ResolutionPresets[i].width % 100 == 0 && ResolutionPresets[i].height % 100 == 0
      && ResolutionPresets[i].id == FoundryId(ResolutionPresets[i].width / 100, ResolutionPresets[i].height / 100)
  {
    forall i | 0 <= i < |ResolutionPresets| && IsFoundryId(ResolutionPresets[i].id)
      ensures ResolutionPresets[i].width % 100 == 0 && ResolutionPresets[i].height % 100 == 0
      ensures ResolutionPresets[i].id == FoundryId(ResolutionPresets[i].width / 100, ResolutionPresets[i].height / 100)
    {
      if i < 7 {
        NotFoundryBefore(i);
      } else {
        FoundryPresetAt(i);
      }
    }
  }

  /** The first seven presets are not Foundry ones. */
  lemma NotFoundryBefore(i: int)
    requires 0 <= i < 7
    ensures !IsFoundryId(ResolutionPresets[i].id)
  {
    var id := ResolutionPresets[i].id;
    if i == 4 {
      assert id[..8][0] == 'i';
    } else {
      assert |id| < 8;
    }
  }

  lemma FoundryPresetAt(i: int)
    requires 7 <= i < |ResolutionPresets|
    ensures ResolutionPresets[i].width % 100 == 0 && ResolutionPresets[i].height % 100 == 0
    ensures ResolutionPresets[i].id == FoundryId(ResolutionPresets[i].width / 100, ResolutionPresets[i].height / 100)
  {
    var p := ResolutionPresets[i];
    TwoDigits(p.width / 100);
    TwoDigits(p.height / 100);
  }

  /** A two-digit number renders as its tens and units digits. */
  lemma TwoDigits(n: nat)
    requires 10 <= n < 100
    ensures NatToString(n) == [DigitChar(n / 10), DigitChar(n % 10)]
  {
  }

  // ---------------------------------------------------------------------
  // Display helpers

  /** `formatFileSize`: only its exact zero case is modelled; every other
      size goes through Math.log and toFixed and is `None` here. */
  function FormatFileSize(bytes: int): (r: Option<string>)
    ensures bytes == 0 <==> r == Some("0 B")
  {
    if bytes == 0 then Some("0 B") else None
  }

  const DimensionSeparator: string := " × "

  /** `formatDimensions(w, h)`, the `${w} × ${h}` label. */
  function FormatDimensions(width: int, height: int): (r: string)
    ensures |r| > |DimensionSeparator|
  {
    IntToString(width) + DimensionSeparator + IntToString(height)
  }

  /** Every character of a rendered integer is a digit or a minus sign. */
  lemma IntToStringChars(n: int)
    ensures |IntToString(n)| > 0
    ensures forall i :: 0 <= i < |IntToString(n)| ==> IntToString(n)[i] == '-' || IsDigit(IntToString(n)[i])
  {
  }

  /** Two strings cut before their first `c` agree on where the cut is. */
  lemma CutAtFirst(a1: string, a2: string, t1: string, t2: string, c: char)
    requires a1 + t1 == a2 + t2
    requires c !in a1 && c !in a2
    requires |t1| > 0 && t1[0] == c && |t2| > 0 && t2[0] == c
    ensures |a1| == |a2| && a1 == a2 && t1 == t2
  {
    assert a1 == (a1 + t1)[..|a1|];
    assert a2 == (a2 + t2)[..|a2|];
    assert t1 == (a1 + t1)[|a1|..];
    assert t2 == (a2 + t2)[|a2|..];
  }

  /** The label determines both numbers: the first space in it marks the end
      of the width. */
  lemma FormatDimensionsInjective(w1: int, h1: int, w2: int, h2: int)
    requires FormatDimensions(w1, h1) == FormatDimensions(w2, h2)
    ensures w1 == w2 && h1 == h2
  {
    FormatDimensionsParts(w1, h1);
    FormatDimensionsParts(w2, h2);
    SeparatedIntsInjective(w1, h1, w2, h2, DimensionSeparator);
  }

  lemma FormatDimensionsParts(w: int, h: int)
    ensures FormatDimensions(w, h) == IntToString(w) + (DimensionSeparator + IntToString(h))
  {
  }

  /** Two integers rendered around a separator that starts with neither a
      digit nor a minus sign can be read back. */
  lemma SeparatedIntsInjective(w1: int, h1: int, w2: int, h2: int, sep: string)
    requires |sep| > 0 && sep[0] != '-' && !IsDigit(sep[0])
    requires IntToString(w1) + (sep + IntToString(h1)) == IntToString(w2) + (sep + IntToString(h2))
    ensures w1 == w2 && h1 == h2
  {
    var a1, a2 := IntToString(w1), IntToString(w2);
    var b1, b2 := IntToString(h1), IntToString(h2);
    IntToStringChars(w1);
    IntToStringChars(w2);
    CutAtFirst(a1, a2, sep + b1, sep + b2, sep[0]);
    IntToStringInjective(w1, w2);
    assert b1 == (sep + b1)[|sep|..];
    assert b2 == (sep + b2)[|sep|..];
    IntToStringInjective(h1, h2);
  }
}

=== FILE: preview_panel.dfy ===
/** The size line of the preview panel (src/components/studio/PreviewPanel.tsx),
    which repeats the size arithmetic of `applyTransformations` on its own. */
module PreviewPanel {
  import opened Util
  import opened Types
  import opened Transform

  /** `outputInfo`: nothing without an image; otherwise the output size
      computed from the image, the rounded crop size, the rotation and the
      resize target. */
  function OutputInfo(image: Option<ImageFile>, settings: ToolSettings): (r: Option<Size>)
    ensures r.None? <==> image.None?
  {
    match image
    case None => None
    case Some(img) =>
      var rotated := settings.rotation == 90 || settings.rotation == 270;
      var srcW := if settings.crop.Some? then Round(settings.crop.value.width) else img.width as int;
      var srcH := if settings.crop.Some? then Round(settings.crop.value.height) else img.height as int;
      var postW := if rotated then srcH else srcW;
      var postH := if rotated then srcW else srcH;
      Some(Size(if settings.resize.width != 0 then settings.resize.width else postW,
                if settings.resize.height != 0 then settings.resize.height else postH))
  }

  /** The panel reports exactly the size of the canvas the pipeline builds. */
  lemma OutputInfoMatchesCanvas(image: ImageFile, settings: ToolSettings)
    ensures var plan := ApplyTransformations(image, settings);
      OutputInfo(Some(image), settings) == Some(Size(plan.width, plan.height))
  {
  }

  /** Only the crop's size matters, not where it sits. */
  lemma OutputInfoIgnoresCropOffset(image: Option<ImageFile>, settings: ToolSettings, x: real, y: real)
    requires settings.crop.Some?
    ensures OutputInfo(image, settings.(crop := Some(settings.crop.value.(x := x, y := y))))
         == OutputInfo(image, settings)
  {
  }

  /** A quarter turn exchanges the reported sides when no resize target is
      set; a half turn keeps them. */
  lemma OutputInfoRotation(image: ImageFile, settings: ToolSettings)
    requires settings.rotation == 0 && settings.resize.width == 0 && settings.resize.height == 0
    ensures var upright := OutputInfo(Some(image), settings).value;
      && OutputInfo(Some(image), settings.(rotation := 90)) == Some(Size(upright.height, upright.width))
      && OutputInfo(Some(image), settings.(rotation := 270)) == Some(Size(upright.height, upright.width))
      && OutputInfo(Some(image), settings.(rotation := 180)) == Some(upright)
  {
  }
}

=== FILE: rate_limit.dfy ===
/** The fixed-window rate limiter of the API routes
    (src/lib/security/rateLimit.ts): a map from client identifier to the
    request count of its current window, advanced one request at a time with
    the clock reading passed in, a periodic sweep of expired windows, and the
    choice of client identifier from proxy headers. */
module RateLimit {

  datatype Entry = Entry(count: int, resetTime: int)

  datatype Config = Config(maxRequests: int, windowMs: int)

  datatype RateLimitResult = RateLimitResult(success: bool, limit: int, remaining: int, reset: int)

  /** The module-level `rateLimitMap`. */
  type Store = map<string, Entry>

  /** The window of `identifier` is over, or it never had one: a request at
      `now` opens a new window. Expiry is strict, so a request exactly at
      the reset time still counts against the old window. */
  predicate OpensWindow(store: Store, identifier: string, now: int) {
    identifier !in store || now > store[identifier].resetTime
  }

  /** `rateLimit(identifier, config)` at clock reading `now`: the new map and
      the result. A new window starts at count 1 and always succeeds; inside
      a live window the count goes up by one, even when the request is
      refused, and the request succeeds while the count stays within the
      maximum. */
  function RateLimit(store: Store, identifier: string, config: Config, now: int): (r: (Store, RateLimitResult))
    ensures r.0.Keys == store.Keys + {identifier}
    ensures forall k :: k in store && k != identifier ==> r.0[k] == store[k]
    ensures r.1.limit == config.maxRequests
    ensures OpensWindow(store, identifier, now) ==>
      r.0[identifier] == Entry(1, now + config.windowMs) &&
      r.1 == RateLimitResult(true, config.maxRequests, config.maxRequests - 1, now + config.windowMs)
    ensures !OpensWindow(store, identifier, now) ==>
      var old_ := store[identifier];
      && r.0[identifier] == Entry(old_.count + 1, old_.resetTime)
      && r.1.reset == old_.resetTime
      && (r.1.success <==> old_.count + 1 <= config.maxRequests)
      && (!r.1.success ==> r.1.remaining == 0)
      && (r.1.success ==> r.1.remaining == config.maxRequests - (old_.count + 1) >= 0)
  {
    if OpensWindow(store, identifier, now) then
      var resetTime := now + config.windowMs;
      (store[identifier := Entry(1, resetTime)],
       RateLimitResult(true, config.maxRequests, config.maxRequests - 1, resetTime))
    else
      var entry := store[identifier];
      var entry' := entry.(count := entry.count + 1);
      var store' := store[identifier := entry'];
      if entry'.count > config.maxRequests then
        (store', RateLimitResult(false, config.maxRequests, 0, entry.resetTime))
      else
        (store', RateLimitResult(true, config.maxRequests, config.maxRequests - entry'.count, entry.resetTime))
  }

  /** A run of requests from one identifier at the given clock readings: the
      final map and the result of each request, in order. */
  function Requests(store: Store, identifier: string, config: Config, times: seq<int>): (r: (Store, seq<RateLimitResult>))
    ensures |r.1| == |times|
    decreases |times|
  {
    if |times| == 0 then (store, [])
    else
      var (store', first) := RateLimit(store, identifier, config, times[0]);
      var rest := Requests(store', identifier, config, times[1..]);
      (rest.0, [first] + rest.1)
  }

  /** A window that opened `n` requests ago at `start` holds count `n`. */
  predicate WindowAt(store: Store, identifier: string, config: Config, start: int, n: int) {
    identifier in store && store[identifier] == Entry(n, start + config.windowMs)
  }

  /** Within one window, the k-th further request (counting from 0) is
      request number n + k + 1 of the window, and it succeeds exactly when
      that number is within the maximum. */
  lemma {:induction false} RequestsInWindow(store: Store, identifier: string, config: Config, start: int, n: int, times: seq<int>)
    requires WindowAt(store, identifier, config, start, n)
    requires forall i :: 0 <= i < |times| ==> times[i] <= start + config.windowMs
    ensures var r := Requests(store, identifier, config, times);
      && WindowAt(r.0, identifier, config, start, n + |times|)
      && forall k :: 0 <= k < |times| ==> (r.1[k].success <==> n + k + 1 <= config.maxRequests)
    decreases |times|
  {
    if |times| > 0 {
      var (store', first) := RateLimit(store, identifier, config, times[0]);
      assert WindowAt(store', identifier, config, start, n + 1);
      RequestsInWindow(store', identifier, config, start, n + 1, times[1..]);
      var r := Requests(store, identifier, config, times);
      var rest := Requests(store', identifier, config, times[1..]);
      assert r.1 == [first] + rest.1;
      forall k | 0 <= k < |times| ensures r.1[k].success <==> n + k + 1 <= config.maxRequests {
        if k > 0 {
          assert r.1[k] == rest.1[k - 1];
        }
      }
    }
  }

  /** With a limit of N, the first request of a fresh client opens a window
      and, within that window, requests 1 to N succeed and every later one
      is refused. */
  lemma FreshClientLimit(store: Store, identifier: string, config: Config, times: seq<int>)
    requires |times| > 0
    requires config.maxRequests >= 1
    requires OpensWindow(store, identifier, times[0])
    requires forall i :: 0 <= i < |times| ==> times[i] <= times[0] + config.windowMs
    ensures var results := Requests(store, identifier, config, times).1;
      forall k :: 0 <= k < |times| ==> (results[k].success <==> k < config.maxRequests)
  {
    var (store', first) := RateLimit(store, identifier, config, times[0]);
    RequestsInWindow(store', identifier, config, times[0], 1, times[1..]);
    var results := Requests(store, identifier, config, times).1;
    var rest := Requests(store', identifier, config, times[1..]).1;
    assert results == [first] + rest;
    forall k | 0 <= k < |times| ensures results[k].success <==> k < config.maxRequests {
      if k > 0 {
        assert results[k] == rest[k - 1];
      }
    }
  }

  /** With the limit of 10 the request script expects, the eleventh request
      of a burst inside one window is refused. */
  lemma EleventhRequestRefused(store: Store, identifier: string, windowMs: int, times: seq<int>)
    requires |times| == 11
    requires OpensWindow(store, identifier, times[0])
    requires forall i :: 0 <= i < 11 ==> times[i] <= times[0] + windowMs
    ensures var results := Requests(store, identifier, Config(10, windowMs), times).1;
      results[9].success && !results[10].success
  {
    FreshClientLimit(store, identifier, Config(10, windowMs), times);
  }

  // ---------------------------------------------------------------------
  // The sweep

  /** The body of the ten-minute `setInterval` callback at clock reading
      `now`: every entry whose window is over is deleted. */
  function Sweep(store: Store, now: int): (r: Store)
    ensures forall k :: k in r <==> k in store && now <= store[k].resetTime
    ensures forall k :: k in r ==> r[k] == store[k]
  {
    map k | k in store && now <= store[k].resetTime :: store[k]
  }

  /** Sweeping never changes how a later request is answered, nor the entry
      it leaves for its identifier. */
  lemma SweepInvisible(store: Store, sweptAt: int, identifier: string, config: Config, now: int)
    requires sweptAt <= now
    ensures var (before, r1) := RateLimit(store, identifier, config, now);
      var (after, r2) := RateLimit(Sweep(store, sweptAt), identifier, config, now);
      r1 == r2 && before[identifier] == after[identifier]
  {
  }

  // ---------------------------------------------------------------------
  // getClientIp

  /** The characters `String.prototype.trim` removes: the ECMAScript
      WhiteSpace and LineTerminator code points. */
  predicate IsJsWhitespace(c: char) {
    var n := c as int;
    || (0x09 <= n <= 0x0D)             // tab, line feed, vertical tab, form feed, carriage return
    || n == 0x20 || n == 0xA0 || n == 0x1680
    || (0x2000 <= n <= 0x200A)         // the en quad to hair space block
    || n == 0x2028 || n == 0x2029      // line and paragraph separators
    || n == 0x202F || n == 0x205F || n == 0x3000
    || n == 0xFEFF                     // byte order mark
  }

  /** `s.trimStart()`: the suffix after the leading whitespace. */
  function TrimStart(s: string): (r: string)
    ensures |r| <= |s| && r == s[|s| - |r|..]
    ensures |r| > 0 ==> !IsJsWhitespace(r[0])
    ensures forall i :: 0 <= i < |s| - |r| ==> IsJsWhitespace(s[i])
    decreases |s|
  {
    if |s| > 0 && IsJsWhitespace(s[0]) then
      var r := TrimStart(s[1..]);
      assert forall i :: 1 <= i < |s| - |r| ==> s[i] == s[1..][i - 1];
      r
    else s
  }

  /** `s.trimEnd()`: the prefix before the trailing whitespace. */
  function TrimEnd(s: string): (r: string)
    ensures |r| <= |s| && r == s[..|r|]
    ensures |r| > 0 ==> !IsJsWhitespace(r[|r| - 1])
    ensures forall i :: |r| <= i < |s| ==> IsJsWhitespace(s[i])
    decreases |s|
  {
    if |s| > 0 && IsJsWhitespace(s[|s| - 1]) then
      var r := TrimEnd(s[..|s| - 1]);
      assert forall i :: |r| <= i < |s| - 1 ==> s[i] == s[..|s| - 1][i];
      r
    else s
  }

  /** Every character of `s` is whitespace. */
  predicate AllWhitespace(s: string) {
    forall i :: 0 <= i < |s| ==> IsJsWhitespace(s[i])
  }

  /** Neither end of `r` is whitespace. */
  predicate TrimmedEnds(r: string) {
    |r| > 0 ==> !IsJsWhitespace(r[0]) && !IsJsWhitespace(r[|r| - 1])
  }

  /** `r` is the slice of `s` at offset `a`, with only whitespace on either side of it. */
  predicate PaddedAt(s: string, a: int, r: string) {
    0 <= a <= |s| - |r| && r == s[a..a + |r|] && AllWhitespace(s[..a]) && AllWhitespace(s[a + |r|..])
  }

  /** `r` is a slice of `s` with only whitespace on either side of it. */
  predicate WithinWhitespace(s: string, r: string) {
    exists a :: 0 <= a <= |s| && PaddedAt(s, a, r)
  }

  /** `s.trim()`: `s` with its leading and trailing whitespace removed. */
  function Trim(s: string): (r: string)
    ensures WithinWhitespace(s, r)
    ensures TrimmedEnds(r)
  {
    var t := TrimStart(s);
    var r := TrimEnd(t);
    TrimPadded(s, |s| - |t|, t, r);
    r
  }

  /** Whitespace dropped from the front of `s` and then from the back of
      what remains leaves a slice with only whitespace around it. */
  lemma TrimPadded(s: string, a: nat, t: string, r: string)
    requires a <= |s| && t == s[a..] && forall i :: 0 <= i < a ==> IsJsWhitespace(s[i])
    requires |r| <= |t| && r == t[..|r|] && forall i :: |r| <= i < |t| ==> IsJsWhitespace(t[i])
    ensures PaddedAt(s, a, r)
  {
    assert r == s[a..a + |r|] by {
      assert s[a..a + |r|] == s[a..][..|r|];
    }
    assert AllWhitespace(s[..a]) by {
      WhitespaceBefore(s, a);
    }
    assert AllWhitespace(s[a + |r|..]) by {
      assert s[a + |r|..] == t[|r|..];
      WhitespaceFrom(t, |r|);
    }
  }

  lemma WhitespaceBefore(s: string, k: nat)
    requires k <= |s|
    requires forall i :: 0 <= i < k ==> IsJsWhitespace(s[i])
    ensures AllWhitespace(s[..k])
  {
    forall j | 0 <= j < k ensures IsJsWhitespace(s[..k][j]) {
      assert s[..k][j] == s[j];
    }
  }

  lemma WhitespaceFrom(t: string, k: nat)
    requires k <= |t|
    requires forall i :: k <= i < |t| ==> IsJsWhitespace(t[i])
    ensures AllWhitespace(t[k..])
  {
    forall j | 0 <= j < |t| - k ensures IsJsWhitespace(t[k..][j]) {
      assert t[k..][j] == t[k + j];
    }
  }

  /** The two clauses above determine the trimmed string: `Trim(s)` is the
      one slice of `s` with only whitespace around it and none at its ends. */
  lemma TrimCharacterised(s: string, r: string)
    ensures Trim(s) == r <==> WithinWhitespace(s, r) && TrimmedEnds(r)
  {
    if WithinWhitespace(s, r) && TrimmedEnds(r) {
      TrimUnique(s, r);
    }
  }

  lemma TrimUnique(s: string, r: string)
    requires WithinWhitespace(s, r) && TrimmedEnds(r)
    ensures Trim(s) == r
  {
    var front := TrimStart(s);
    var t := TrimEnd(front);
    var b := |s| - |front|;
    TrimPadded(s, b, front, t);
    assert Trim(s) == t;
    var a :| 0 <= a <= |s| && PaddedAt(s, a, r);
    SameTrimmedSlice(s, a, r, b, t);
  }

  /** Two slices of `s`, each with only whitespace around it and none at its
      ends, are the same slice. */
  lemma SameTrimmedSlice(s: string, a: int, r: string, b: int, t: string)
    requires PaddedAt(s, a, r) && TrimmedEnds(r)
    requires PaddedAt(s, b, t) && TrimmedEnds(t)
    ensures r == t
  {
    var m, n := |r|, |t|;
    if m > 0 {
      assert r[0] == s[a] && r[m - 1] == s[a + m - 1];
      InsideSlice(s, b, n, a);
      InsideSlice(s, b, n, a + m - 1);
    }
    if n > 0 {
      assert t[0] == s[b] && t[n - 1] == s[b + n - 1];
      InsideSlice(s, a, m, b);
      InsideSlice(s, a, m, b + n - 1);
    }
  }

  /** A character that is not whitespace lies inside a slice that has only
      whitespace around it. */
  lemma InsideSlice(s: string, b: nat, n: nat, i: nat)
    requires b + n <= |s| && i < |s|
    requires AllWhitespace(s[..b]) && AllWhitespace(s[b + n..])
    requires !IsJsWhitespace(s[i])
    ensures b <= i < b + n
  {
  }

  /** `s.split(',')[0]`: everything before the first comma. */
  function FirstField(s: string): (r: string)
    ensures r <= s
    ensures ',' !in r
    ensures |r| < |s| ==> s[|r|] == ','
  {
    if |s| == 0 || s[0] == ',' then "" else [s[0]] + FirstField(s[1..])
  }

  const ForwardedFor: string := "x-forwarded-for"
  const RealIp: string := "x-real-ip"
  const UnknownClient: string := "unknown"

  /** `getClientIp(request)`, over the request's headers keyed by lower-case
      name (`headers.get` answers null for an absent header). A non-empty
      `x-forwarded-for` decides, through its first field trimmed; otherwise
      a non-empty `x-real-ip` as it is; otherwise "unknown". */
  function GetClientIp(headers: map<string, string>): (r: string)
    ensures ForwardedFor in headers && headers[ForwardedFor] != "" ==>
      && ',' !in r
      && WithinWhitespace(FirstField(headers[ForwardedFor]), r)
      && TrimmedEnds(r)
    ensures !(ForwardedFor in headers && headers[ForwardedFor] != "") && RealIp in headers && headers[RealIp] != "" ==>
      r == headers[RealIp]
    ensures !(ForwardedFor in headers && headers[ForwardedFor] != "") && !(RealIp in headers && headers[RealIp] != "") ==>
      r == UnknownClient
  {
    if ForwardedFor in headers && headers[ForwardedFor] != "" then
      var first := FirstField(headers[ForwardedFor]);
      var r := Trim(first);
      r
    else if RealIp in headers && headers[RealIp] != "" then headers[RealIp]
    else UnknownClient
  }

  /** The client proxies append to `x-forwarded-for`, so the first hop is
      the original client: with `client, proxy, ...` (or the client alone)
      the client is picked, whitespace around it dropped, whatever
      `x-real-ip` says. */
  lemma ForwardedClientPicked(headers: map<string, string>, pre: string, client: string, post: string, tail: string)
    requires ForwardedFor in headers && headers[ForwardedFor] == pre + client + post + tail
    requires headers[ForwardedFor] != ""
    requires AllWhitespace(pre) && AllWhitespace(post) && TrimmedEnds(client) && ',' !in client
    requires tail == "" || tail[0] == ','
    ensures GetClientIp(headers) == client
  {
    var field := pre + client + post;
    NoCommaInWhitespace(pre);
    NoCommaInWhitespace(post);
    assert ',' !in field;
    FirstFieldOf(field, tail);
    assert headers[ForwardedFor] == field + tail;
    PaddedTrim(pre, client, post);
  }

  /** The usual shape, a client followed by one proxy. */
  lemma ClientBeforeProxy(headers: map<string, string>)
    requires ForwardedFor in headers && headers[ForwardedFor] == "203.0.113.1, 10.0.0.1"
    ensures GetClientIp(headers) == "203.0.113.1"
  {
    assert headers[ForwardedFor] == "" + "203.0.113.1" + "" + ", 10.0.0.1";
    ForwardedClientPicked(headers, "", "203.0.113.1", "", ", 10.0.0.1");
  }

  lemma NoCommaInWhitespace(s: string)
    requires AllWhitespace(s)
    ensures ',' !in s
  {
    assert !IsJsWhitespace(',');
  }

  /** Whitespace around a string with non-whitespace ends is trimmed away. */
  lemma PaddedTrim(pre: string, client: string, post: string)
    requires AllWhitespace(pre) && AllWhitespace(post) && TrimmedEnds(client)
    ensures Trim(pre + client + post) == client
  {
    var field := pre + client + post;
    var a := |pre|;
    assert field[a..a + |client|] == client;
    assert field[..a] == pre;
    assert field[a + |client|..] == post;
    assert PaddedAt(field, a, client);
    TrimCharacterised(field, client);
  }

  /** A field without commas, followed by a comma or by nothing, is cut back
      out exactly. */
  lemma {:induction false} FirstFieldOf(field: string, tail: string)
    requires ',' !in field
    requires tail == "" || tail[0] == ','
    ensures FirstField(field + tail) == field
  {
    if |field| > 0 {
      assert (field + tail)[1..] == field[1..] + tail;
      FirstFieldOf(field[1..], tail);
      assert field == [field[0]] + field[1..];
    } else {
      assert field + tail == tail;
    }
  }
}

=== FILE: studio_page.dfy ===
/** The state transitions of the studio page (src/app/studio/page.tsx): the
    loaded image and the tool settings, replaced wholesale on every event. */
module StudioPage {
  import opened Util
  import opened Types
  import opened Transform
  import opened PreviewPanel

  datatype StudioState = StudioState(image: Option<ImageFile>, settings: ToolSettings)

  /** The page as first rendered: no image, default settings. */
  const InitialState: StudioState := StudioState(None, CreateDefaultSettings(None))

  /** `handleImageLoad`: a freshly loaded image starts from default settings
      sized to it. */
  function HandleImageLoad(state: StudioState, loaded: ImageFile): (r: StudioState)
    ensures r.image == Some(loaded)
    ensures r.settings == CreateDefaultSettings(Some(loaded))
  {
    StudioState(Some(loaded), CreateDefaultSettings(Some(loaded)))
  }

  /** `handleImageUpdate`: the new image replaces the old, the resize target
      becomes its size and the crop is dropped; rotation, flips, aspect lock,
      quality and format carry over. */
  function HandleImageUpdate(state: StudioState, updated: ImageFile): (r: StudioState)
    ensures r.image == Some(updated)
    ensures r.settings.resize.width == updated.width && r.settings.resize.height == updated.height
    ensures r.settings.resize.maintainAspect == state.settings.resize.maintainAspect
    ensures r.settings.crop.None?
    ensures r.settings.(resize := state.settings.resize, crop := state.settings.crop) == state.settings
  {
    var s := state.settings;
    StudioState(Some(updated),
      s.(resize := s.resize.(width := updated.width, height := updated.height), crop := None))
  }

  /** `handleClear`: back to the page's initial state. */
  function HandleClear(state: StudioState): (r: StudioState)
    ensures r == InitialState
  {
    StudioState(None, CreateDefaultSettings(None))
  }

  /** `handleCropComplete`: records the crop and nothing else. */
  function HandleCropComplete(state: StudioState, crop: CropData): (r: StudioState)
    ensures r.image == state.image
    ensures r.settings.crop == Some(crop)
    ensures r.settings.(crop := state.settings.crop) == state.settings
  {
    StudioState(state.image, state.settings.(crop := Some(crop)))
  }

  /** Right after a load the panel reports the image's own size. */
  lemma LoadShowsImageSize(state: StudioState, loaded: ImageFile)
    ensures var r := HandleImageLoad(state, loaded);
      OutputInfo(r.image, r.settings) == Some(Size(loaded.width, loaded.height))
  {
  }

  /** After an update the panel reports the new image's size, whatever the
      rotation and crop were before. */
  lemma UpdateShowsImageSize(state: StudioState, updated: ImageFile)
    ensures var r := HandleImageUpdate(state, updated);
      OutputInfo(r.image, r.settings) == Some(Size(updated.width, updated.height))
  {
  }

  /** A crop with no resize target and no rotation yields a canvas of the
      rounded crop size. */
  lemma CropSetsCanvasSize(state: StudioState, crop: CropData)
    requires state.image.Some?
    requires state.settings.rotation == 0
    requires state.settings.resize.width == 0 && state.settings.resize.height == 0
    ensures var r := HandleCropComplete(state, crop);
      var plan := ApplyTransformations(r.image.value, r.settings);
      plan.width == Round(crop.width) && plan.height == Round(crop.height)
  {
  }
}

=== FILE: studio_settings.dfy ===
/** The aggregate settings record the export pipeline and the output, batch
    and wallpaper panels share, and the preset catalog lookup they use. The
    source imports both from modules that are not part of this model, so the
    record carries only the fields the modelled code reads or writes, the
    wallpaper's remaining configuration is an abstract value, and the
    catalog is a parameter. */
module Studio {
  import opened Util

  /** The wallpaper fields no modelled code reads: aspect ratio, custom size,
      background, extend mode, AI image and crop. */
  type WallpaperDetails(==)

  datatype WallpaperSettings = WallpaperSettings(
    enabled: bool,
    orientation: string,   // "horizontal" or "vertical"
    mode: string,          // "fit", "crop" or "extend"
    details: WallpaperDetails)

  datatype OutputSettings = OutputSettings(
    preset: string,
    customWidth: int,
    customHeight: int,
    maintainAspect: bool,
    fitMode: string)

  datatype PreprocessingSettings = PreprocessingSettings(removeBackground: bool)

  datatype OptimizationSettings = OptimizationSettings(
    format: string,
    quality: int,
    targetSizeEnabled: bool,
    targetSizeMB: real,
    removeMetadata: bool)

  datatype BatchSettings = BatchSettings(enabled: bool, selectedPresets: seq<string>)

  datatype StudioSettings = StudioSettings(
    wallpaper: WallpaperSettings,
    output: OutputSettings,
    preprocessing: PreprocessingSettings,
    optimization: OptimizationSettings,
    batch: BatchSettings)

  /** An entry of the wallpaper/social/Foundry preset catalog. */
  datatype Preset = Preset(id: string, name: string, width: int, height: int, category: string)

  /** `getPresetById` over a given catalog: the first entry with that id. */
  function GetPresetById(catalog: seq<Preset>, id: string): (r: Option<Preset>)
    ensures r.Some? ==> r.value in catalog && r.value.id == id
    ensures r.None? <==> forall i :: 0 <= i < |catalog| ==> catalog[i].id != id
  {
    FindById(catalog, (p: Preset) => p.id, id)
  }
}

=== FILE: transform.dfy ===
/** The geometry of the canvas pipeline in src/lib/image/transform.ts: which
    source rectangle is read, how large the output canvas is, where the image
    is drawn, and how the preview scales the result down. Pixel work is not
    modelled; a `CanvasPlan` records the numbers handed to the 2D context. */
module Transform {
  import opened Util
  import opened Types

  /** An integer rectangle of the source image. */
  datatype Rect = Rect(x: int, y: int, width: int, height: int)

  /** A rectangle in drawing coordinates. */
  datatype RealRect = RealRect(x: real, y: real, width: real, height: real)

  datatype Point = Point(x: real, y: real)

  /** What `applyTransformations` asks of the canvas: its size, the source
      rectangle, the rotation and flip factors, and the destination rectangle
      in the rotated, flipped coordinate system centred on the canvas. */
  datatype CanvasPlan = CanvasPlan(
    width: int,
    height: int,
    source: Rect,
    rotation: int,
    scaleX: int,
    scaleY: int,
    draw: RealRect)

  datatype Size = Size(width: int, height: int)

  // ---------------------------------------------------------------------
  // Step 1: the source rectangle

  /** The whole image, or the crop rectangle with each coordinate rounded. */
  function SourceRect(image: ImageFile, crop: Option<CropData>): (r: Rect)
    ensures crop.None? ==> r == Rect(0, 0, image.width, image.height)
    ensures crop.Some? ==>
      && r.x as real - 0.5 <= crop.value.x < r.x as real + 0.5
      && r.y as real - 0.5 <= crop.value.y < r.y as real + 0.5
      && r.width as real - 0.5 <= crop.value.width < r.width as real + 0.5
      && r.height as real - 0.5 <= crop.value.height < r.height as real + 0.5
  {
    match crop
    case None => Rect(0, 0, image.width, image.height)
    case Some(c) => Rect(Round(c.x), Round(c.y), Round(c.width), Round(c.height))
  }

  // ---------------------------------------------------------------------
  // Step 2: the size after rotation

  /** A quarter turn one way or the other exchanges width and height. */
  predicate SwapsSides(rotation: int) {
    rotation == 90 || rotation == 270
  }

  predicate IsQuarterTurn(rotation: int) {
    rotation == 0 || rotation == 90 || rotation == 180 || rotation == 270
  }

  function PostRotation(size: Size, rotation: int): (r: Size)
    ensures SwapsSides(rotation) ==> r.width == size.height && r.height == size.width
    ensures !SwapsSides(rotation) ==> r == size
  {
    if SwapsSides(rotation) then Size(size.height, size.width) else size
  }

  lemma PostRotationInvolution(size: Size, rotation: int)
    ensures PostRotation(PostRotation(size, rotation), rotation) == size
  {
  }

  // ---------------------------------------------------------------------
  // Step 3: the output size

  /** `resize.width || postRotW` and `resize.height || postRotH`: each side
      falls back on its own when its requested value is zero. */
  function OutputSize(resize: ResizeSettings, post: Size): (r: Size)
    ensures resize.width != 0 ==> r.width == resize.width
    ensures resize.width == 0 ==> r.width == post.width
    ensures resize.height != 0 ==> r.height == resize.height
    ensures resize.height == 0 ==> r.height == post.height
  {
    Size(if resize.width != 0 then resize.width else post.width,
         if resize.height != 0 then resize.height else post.height)
  }

  // ---------------------------------------------------------------------
  // Step 4: the draw rectangle

  /** The destination rectangle, centred on the origin, in pre-rotation
      coordinates: the output size, with its sides exchanged under a quarter
      turn so that it lies along the canvas once rotated. */
  function DrawRect(output: Size, rotation: int): (r: RealRect)
    ensures r.x == -r.width / 2.0 && r.y == -r.height / 2.0
    ensures SwapsSides(rotation) ==> r.width == output.height as real && r.height == output.width as real
    ensures !SwapsSides(rotation) ==> r.width == output.width as real && r.height == output.height as real
  {
    var d := PostRotation(output, rotation);
    RealRect(-(d.width as real) / 2.0, -(d.height as real) / 2.0, d.width as real, d.height as real)
  }

  function FlipFactor(flip: bool): int {
    if flip then -1 else 1
  }

  /** `applyTransformations`, reduced to the numbers it hands the canvas. */
  function ApplyTransformations(image: ImageFile, settings: ToolSettings): (plan: CanvasPlan)
    ensures plan.source == SourceRect(image, settings.crop)
    ensures
      var post := PostRotation(Size(plan.source.width, plan.source.height), settings.rotation);
      Size(plan.width, plan.height) == OutputSize(settings.resize, post)
    ensures plan.draw == DrawRect(Size(plan.width, plan.height), settings.rotation)
    ensures plan.rotation == settings.rotation
    ensures plan.scaleX == (if settings.flipH then -1 else 1)
    ensures plan.scaleY == (if settings.flipV then -1 else 1)
  {
    var src := SourceRect(image, settings.crop);
    var post := PostRotation(Size(src.width, src.height), settings.rotation);
    var out := OutputSize(settings.resize, post);
    CanvasPlan(out.width, out.height, src, settings.rotation,
               FlipFactor(settings.flipH), FlipFactor(settings.flipV),
               DrawRect(out, settings.rotation))
  }

  // ---------------------------------------------------------------------
  // Where the drawn image lands

  /** Rotation by a quarter-turn multiple in canvas coordinates (y pointing
      down, positive angles clockwise), exact on these four angles. */
  function RotateQuarter(p: Point, rotation: int): Point
    requires IsQuarterTurn(rotation)
  {
    if rotation == 0 then p
    else if rotation == 90 then Point(-p.y, p.x)
    else if rotation == 180 then Point(-p.x, -p.y)
    else Point(p.y, -p.x)
  }

  /** The canvas transform of the plan: scale (flip), then rotate, then move
      the origin to the canvas centre, applied to a point of draw space. */
  function ToCanvas(plan: CanvasPlan, p: Point): Point
    requires IsQuarterTurn(plan.rotation)
  {
    // scaleX and scaleY are 1 or -1, so scaling is negation or nothing.
    var flipped := Point(if plan.scaleX < 0 then -p.x else p.x, if plan.scaleY < 0 then -p.y else p.y);
    var turned := RotateQuarter(flipped, plan.rotation);
    Point(turned.x + plan.width as real / 2.0, turned.y + plan.height as real / 2.0)
  }

  function CanvasCorners(width: int, height: int): set<Point> {
    { Point(0.0, 0.0), Point(width as real, 0.0),
      Point(0.0, height as real), Point(width as real, height as real) }
  }

  /** Where the plan sends the four corners of its draw rectangle. */
  function DrawnCorners(plan: CanvasPlan): set<Point>
    requires IsQuarterTurn(plan.rotation)
  {
    var d := plan.draw;
    { ToCanvas(plan, Point(d.x, d.y)), ToCanvas(plan, Point(d.x + d.width, d.y)),
      ToCanvas(plan, Point(d.x, d.y + d.height)), ToCanvas(plan, Point(d.x + d.width, d.y + d.height)) }
  }

  /** For every quarter-turn rotation and either flip, the draw rectangle's
      corners land exactly on the canvas corners: the image covers the whole
      canvas and nothing outside it. */
  lemma DrawRectCoversCanvas(image: ImageFile, settings: ToolSettings)
    requires IsQuarterTurn(settings.rotation)
    ensures var plan := ApplyTransformations(image, settings);
      DrawnCorners(plan) == CanvasCorners(plan.width, plan.height)
  {
    var plan := ApplyTransformations(image, settings);
    CornersOfCentredRect(plan);
  }

  lemma CornersOfCentredRect(plan: CanvasPlan)
    requires IsQuarterTurn(plan.rotation)
    requires plan.draw == DrawRect(Size(plan.width, plan.height), plan.rotation)
    ensures DrawnCorners(plan) == CanvasCorners(plan.width, plan.height)
  {
    if plan.rotation == 0 { CornersAt0(plan); }
    else if plan.rotation == 90 { CornersAt90(plan); }
    else if plan.rotation == 180 { CornersAt180(plan); }
    else { CornersAt270(plan); }
  }

  /** Each case lists the canvas corners hit by the top-left, top-right,
      bottom-left and bottom-right corners of the draw rectangle. */
  lemma CornersAt0(plan: CanvasPlan)
    requires plan.rotation == 0
    requires plan.draw == DrawRect(Size(plan.width, plan.height), plan.rotation)
    ensures DrawnCorners(plan) == CanvasCorners(plan.width, plan.height)
  {
    var w, h := plan.width as real, plan.height as real;
    var d := plan.draw;
    var p1, p2 := ToCanvas(plan, Point(d.x, d.y)), ToCanvas(plan, Point(d.x + d.width, d.y));
    var p3, p4 := ToCanvas(plan, Point(d.x, d.y + d.height)), ToCanvas(plan, Point(d.x + d.width, d.y + d.height));
    var c00, c10, c01, c11 := Point(0.0, 0.0), Point(w, 0.0), Point(0.0, h), Point(w, h);
    var fx, fy := plan.scaleX < 0, plan.scaleY < 0;
    if !fx && !fy { assert [p1, p2, p3, p4] == [c00, c10, c01, c11]; }
    else if !fx { assert [p1, p2, p3, p4] == [c01, c11, c00, c10]; }
    else if !fy { assert [p1, p2, p3, p4] == [c10, c00, c11, c01]; }
    else { assert [p1, p2, p3, p4] == [c11, c01, c10, c00]; }
  }

  /** Each case lists the canvas corners hit by the top-left, top-right,
      bottom-left and bottom-right corners of the draw rectangle. */
  lemma CornersAt90(plan: CanvasPlan)
    requires plan.rotation == 90
    requires plan.draw == DrawRect(Size(plan.width, plan.height), plan.rotation)
    ensures DrawnCorners(plan) == CanvasCorners(plan.width, plan.height)
  {
    var w, h := plan.width as real, plan.height as real;
    var d := plan.draw;
    var p1, p2 := ToCanvas(plan, Point(d.x, d.y)), ToCanvas(plan, Point(d.x + d.width, d.y));
    var p3, p4 := ToCanvas(plan, Point(d.x, d.y + d.height)), ToCanvas(plan, Point(d.x + d.width, d.y + d.height));
    var c00, c10, c01, c11 := Point(0.0, 0.0), Point(w, 0.0), Point(0.0, h), Point(w, h);
    var fx, fy := plan.scaleX < 0, plan.scaleY < 0;
    if !fx && !fy { assert [p1, p2, p3, p4] == [c10, c11, c00, c01]; }
    else if !fx { assert [p1, p2, p3, p4] == [c00, c01, c10, c11]; }
    else if !fy { assert [p1, p2, p3, p4] == [c11, c10, c01, c00]; }
    else { assert [p1, p2, p3, p4] == [c01, c00, c11, c10]; }
  }

  /** Each case lists the canvas corners hit by the top-left, top-right,
      bottom-left and bottom-right corners of the draw rectangle. */
  lemma CornersAt180(plan: CanvasPlan)
    requires plan.rotation == 180
    requires plan.draw == DrawRect(Size(plan.width, plan.height), plan.rotation)
    ensures DrawnCorners(plan) == CanvasCorners(plan.width, plan.height)
  {
    var w, h := plan.width as real, plan.height as real;
    var d := plan.draw;
    var p1, p2 := ToCanvas(plan, Point(d.x, d.y)), ToCanvas(plan, Point(d.x + d.width, d.y));
    var p3, p4 := ToCanvas(plan, Point(d.x, d.y + d.height)), ToCanvas(plan, Point(d.x + d.width, d.y + d.height));
    var c00, c10, c01, c11 := Point(0.0, 0.0), Point(w, 0.0), Point(0.0, h), Point(w, h);
    var fx, fy := plan.scaleX < 0, plan.scaleY < 0;
    if !fx && !fy { assert [p1, p2, p3, p4] == [c11, c01, c10, c00]; }
    else if !fx { assert [p1, p2, p3, p4] == [c10, c00, c11, c01]; }
    else if !fy { assert [p1, p2, p3, p4] == [c01, c11, c00, c10]; }
    else { assert [p1, p2, p3, p4] == [c00, c10, c01, c11]; }
  }

  /** Each case lists the canvas corners hit by the top-left, top-right,
      bottom-left and bottom-right corners of the draw rectangle. */
  lemma CornersAt270(plan: CanvasPlan)
    requires plan.rotation == 270
    requires plan.draw == DrawRect(Size(plan.width, plan.height), plan.rotation)
    ensures DrawnCorners(plan) == CanvasCorners(plan.width, plan.height)
  {
    var w, h := plan.width as real, plan.height as real;
    var d := plan.draw;
    var p1, p2 := ToCanvas(plan, Point(d.x, d.y)), ToCanvas(plan, Point(d.x + d.width, d.y));
    var p3, p4 := ToCanvas(plan, Point(d.x, d.y + d.height)), ToCanvas(plan, Point(d.x + d.width, d.y + d.height));
    var c00, c10, c01, c11 := Point(0.0, 0.0), Point(w, 0.0), Point(0.0, h), Point(w, h);
    var fx, fy := plan.scaleX < 0, plan.scaleY < 0;
    if !fx && !fy { assert [p1, p2, p3, p4] == [c01, c00, c11, c10]; }
    else if !fx { assert [p1, p2, p3, p4] == [c11, c10, c01, c00]; }
    else if !fy { assert [p1, p2, p3, p4] == [c00, c01, c10, c11]; }
    else { assert [p1, p2, p3, p4] == [c10, c11, c00, c01]; }
  }

  // ---------------------------------------------------------------------
  // The preview

  function Max(a: int, b: int): int {
    if a >= b then a else b
  }

  function MinReal(a: real, b: real): real {
    if a <= b then a else b
  }

  /** `Math.min(1, maxDimension / Math.max(postRotW, postRotH))`. A zero
      longest side gives an infinite (or NaN) quotient in the source, and the
      preview sides are zero whatever the factor; the model uses 1. */
  function PreviewScale(post: Size, maxDimension: real): (s: real)
    ensures s <= 1.0
    ensures Max(post.width, post.height) as real <= maxDimension ==>
      Max(post.width, post.height) <= 0 || s == 1.0
  {
    var longest := Max(post.width, post.height);
    if longest == 0 then 1.0 else MinReal(1.0, maxDimension / longest as real)
  }

  datatype Preview = Preview(settings: ToolSettings, canvas: CanvasPlan)

  /** The post-rotation size of the (possibly cropped) source. */
  function SourceSize(image: ImageFile, settings: ToolSettings): Size {
    var src := SourceRect(image, settings.crop);
    PostRotation(Size(src.width, src.height), settings.rotation)
  }

  /** The resize target the preview asks for: each post-rotation side scaled
      by the preview factor and rounded. */
  function PreviewResize(post: Size, maxDimension: real): Size {
    var scale := PreviewScale(post, maxDimension);
    Size(Round(post.width as real * scale), Round(post.height as real * scale))
  }

  /** The preview canvas size: the preview target, each side falling back to
      the post-rotation side when it rounded to zero. */
  function PreviewCanvasSize(post: Size, maxDimension: real): Size {
    var target := PreviewResize(post, maxDimension);
    Size(if target.width != 0 then target.width else post.width,
         if target.height != 0 then target.height else post.height)
  }

  /** `createPreviewCanvas`: the same pipeline with the resize target replaced
      by the post-rotation size scaled by the preview factor. */
  function CreatePreviewCanvas(image: ImageFile, settings: ToolSettings, maxDimension: real): (p: Preview)
    ensures p.settings.(resize := settings.resize) == settings
    ensures p.settings.resize.maintainAspect == settings.resize.maintainAspect
    ensures p.canvas == ApplyTransformations(image, p.settings)
    ensures var target := PreviewResize(SourceSize(image, settings), maxDimension);
      && p.settings.resize.width == target.width && p.settings.resize.height == target.height
      && Size(p.canvas.width, p.canvas.height) == PreviewCanvasSize(SourceSize(image, settings), maxDimension)
  {
    var target := PreviewResize(SourceSize(image, settings), maxDimension);
    var s := settings.(resize := settings.resize.(width := target.width, height := target.height));
    Preview(s, ApplyTransformations(image, s))
  }

  /** Scaling a side by a factor of at most one never makes it longer. */
  lemma ScaledSideAtMost(side: int, scale: real)
    requires side >= 0 && scale <= 1.0
    ensures Round(side as real * scale) <= side
  {
    assert side as real * scale <= side as real;
    RoundMonotone(side as real * scale, side as real);
    RoundOfInteger(side);
  }

  /** The preview never upscales: when the source sides are not negative,
      each preview side is at most the corresponding post-rotation side. */
  lemma PreviewNeverUpscales(image: ImageFile, settings: ToolSettings, maxDimension: real)
    requires SourceSize(image, settings).width >= 0 && SourceSize(image, settings).height >= 0
    ensures var p := CreatePreviewCanvas(image, settings, maxDimension);
      && p.canvas.width <= SourceSize(image, settings).width
      && p.canvas.height <= SourceSize(image, settings).height
  {
    PreviewSizeAtMostSource(SourceSize(image, settings), maxDimension);
  }

  lemma PreviewSizeAtMostSource(post: Size, maxDimension: real)
    requires post.width >= 0 && post.height >= 0
    ensures PreviewCanvasSize(post, maxDimension).width <= post.width
    ensures PreviewCanvasSize(post, maxDimension).height <= post.height
  {
    var scale := PreviewScale(post, maxDimension);
    ScaledSideAtMost(post.width, scale);
    ScaledSideAtMost(post.height, scale);
  }

  lemma MulMonotone(a: real, b: real, c: real)
    requires a <= b && c >= 0.0
    ensures a * c <= b * c
  {
    assert b * c - a * c == (b - a) * c;
  }

  lemma DivTimes(x: real, m: real)
    requires m > 0.0
    ensures (x / m) * m == x
  {
  }

  /** A side no longer than the longest side, scaled by the preview factor,
      rounds to at most `round(maxDimension)`. */
  lemma ScaledSideWithinBound(side: int, post: Size, maxDimension: real)
    requires 0 <= side <= Max(post.width, post.height) && maxDimension > 0.0
    ensures Round(side as real * PreviewScale(post, maxDimension)) <= Round(maxDimension)
  {
    var longest := Max(post.width, post.height);
    if longest == 0 {
      assert side as real * PreviewScale(post, maxDimension) == 0.0;
      RoundMonotone(0.0, maxDimension);
    } else {
      var scaled := ScaledWithin(side as real, longest as real, maxDimension);
      assert scaled == side as real * PreviewScale(post, maxDimension);
      RoundMonotone(scaled, maxDimension);
    }
  }

  /** `side * min(1, maxDimension / m)` for `0 <= side <= m`, which is at
      most `maxDimension`. */
  function ScaledWithin(side: real, m: real, maxDimension: real): (r: real)
    requires 0.0 <= side <= m && m > 0.0 && maxDimension > 0.0
    ensures r == side * MinReal(1.0, maxDimension / m)
    ensures r <= maxDimension
  {
    var k := maxDimension / m;
    DivTimes(maxDimension, m);
    if k < 1.0 then
      MulMonotone(side, m, k);
      assert m * k == maxDimension;
      side * k
    else
      MulMonotone(1.0, k, m);
      assert k * m == maxDimension && 1.0 * m == m;
      side * 1.0
  }

  /** The preview's sides stay within `round(maxDimension)` as long as neither
      scaled side rounds to zero (a zero side falls back to the full
      post-rotation side, as `PreviewFallbackExceedsBound` shows). */
  lemma PreviewWithinBound(image: ImageFile, settings: ToolSettings, maxDimension: real)
    requires maxDimension > 0.0
    requires SourceSize(image, settings).width >= 0 && SourceSize(image, settings).height >= 0
    requires PreviewResize(SourceSize(image, settings), maxDimension).width != 0
    requires PreviewResize(SourceSize(image, settings), maxDimension).height != 0
    ensures var p := CreatePreviewCanvas(image, settings, maxDimension);
      Max(p.canvas.width, p.canvas.height) <= Round(maxDimension)
  {
    var post := SourceSize(image, settings);
    var p := CreatePreviewCanvas(image, settings, maxDimension);
    assert Size(p.canvas.width, p.canvas.height) == PreviewCanvasSize(post, maxDimension);
    PreviewSizeWithinBound(post, maxDimension);
  }

  lemma PreviewSizeWithinBound(post: Size, maxDimension: real)
    requires maxDimension > 0.0 && post.width >= 0 && post.height >= 0
    requires PreviewResize(post, maxDimension).width != 0 && PreviewResize(post, maxDimension).height != 0
    ensures var size := PreviewCanvasSize(post, maxDimension);
      Max(size.width, size.height) <= Round(maxDimension)
  {
    ScaledSideWithinBound(post.width, post, maxDimension);
    ScaledSideWithinBound(post.height, post, maxDimension);
  }

  /** As written, a side whose scaled value rounds to zero falls back to its
      full post-rotation length: a 1000 × 10000000 image previewed with an
      800-pixel bound gets a 1000-pixel-wide preview. */
  lemma PreviewFallbackExceedsBound()
    ensures var image := ImageFile("tall.png", 0, 1000, 10000000);
      var settings := CreateDefaultSettings(Some(image));
      CreatePreviewCanvas(image, settings, 800.0).canvas.width == 1000
  {
    var image := ImageFile("tall.png", 0, 1000, 10000000);
    var settings := CreateDefaultSettings(Some(image));
    var post := SourceSize(image, settings);
    assert post == Size(1000, 10000000);
    assert PreviewScale(post, 800.0) == 800.0 / 10000000.0;
    assert Round(1000.0 * (800.0 / 10000000.0)) == 0;
  }
}

=== FILE: types.dfy ===
/** The editing records of the studio page (src/lib/image/types.ts). */
module Types {
  import opened Util

  /** A pixel dimension of a decoded image: always at least one pixel. */
  type Dimension = x: int | x > 0 witness 1

  /** The parts of a loaded image the model needs. The browser handles the
      source keeps next to them (File, object URL, <img> element) are not
      modelled. */
  datatype ImageFile = ImageFile(name: string, size: nat, width: Dimension, height: Dimension)

  /** A crop rectangle in source-image pixels, as the cropper reports it
      (fractional values allowed). */
  datatype CropData = CropData(x: real, y: real, width: real, height: real)

  /** Requested output size; a zero side means "keep the post-rotation size". */
  datatype ResizeSettings = ResizeSettings(width: int, height: int, maintainAspect: bool)

  datatype ToolSettings = ToolSettings(
    rotation: int,
    flipH: bool,
    flipV: bool,
    resize: ResizeSettings,
    quality: int,
    format: string,
    crop: Option<CropData>)

  const DefaultWidth: int := 1920
  const DefaultHeight: int := 1080
  const DefaultQuality: int := 90

  /** `createDefaultSettings(image?)`: an upright, unflipped, uncropped PNG at
      quality 90 whose resize target is the image's own size, or 1920×1080
      when there is no image. */
  function CreateDefaultSettings(image: Option<ImageFile>): (s: ToolSettings)
    ensures s.rotation == 0 && !s.flipH && !s.flipV
    ensures image.Some? ==> s.resize.width == image.value.width && s.resize.height == image.value.height
    ensures image.None? ==> s.resize.width == 1920 && s.resize.height == 1080
    ensures s.resize.maintainAspect
    ensures s.quality == 90 && s.format == "png" && s.crop.None?
  {
    var w := if image.Some? then image.value.width as int else DefaultWidth;
    var h := if image.Some? then image.value.height as int else DefaultHeight;
    ToolSettings(0, false, false, ResizeSettings(w, h, true), DefaultQuality, "png", None)
  }
}

=== FILE: util.dfy ===
/** Shared building blocks: an Option type, bytes, the JavaScript number
    operations the studio relies on (Math.round, the truncating `%`), and
    decimal rendering of integers as template strings produce it. */
module Util {

  datatype Option<+T> = None | Some(value: T)

  /** One octet, as stored in a Uint8Array. */
  type Byte = x: int | 0 <= x < 256

  // ---------------------------------------------------------------------
  // Math.round

  /** JavaScript's Math.round on a real: the nearest integer, halves rounded
      towards positive infinity. The contract pins the result down uniquely. */
  function Round(x: real): (r: int)
    ensures x - 0.5 < r as real <= x + 0.5
  {
    (x + 0.5).Floor
  }

  lemma RoundMonotone(x: real, y: real)
    requires x <= y
    ensures Round(x) <= Round(y)
  {
  }

  lemma RoundOfInteger(n: int)
    ensures Round(n as real) == n
  {
  }

  // ---------------------------------------------------------------------
  // The `%` operator of JavaScript

  /** JavaScript's `%` on integers: the remainder takes the sign of the
      dividend (truncating division), unlike Dafny's Euclidean `%`. */
  function JsRem(a: int, b: int): (r: int)
    requires b > 0
    ensures a >= 0 ==> r == a % b
    ensures a < 0 ==> -b < r <= 0
  {
    if a >= 0 then a % b else -((-a) % b)
  }

  /** The truncating remainder is odd in its dividend. */
  lemma JsRemOdd(a: int, b: int)
    requires b > 0
    ensures JsRem(-a, b) == -JsRem(a, b)
  {
  }

  // ---------------------------------------------------------------------
  // Decimal rendering, as `${n}` produces it for an integral number

  predicate IsDigit(c: char) {
    '0' <= c <= '9'
  }

  predicate AllDigits(s: string) {
    forall i :: 0 <= i < |s| ==> IsDigit(s[i])
  }

  function DigitChar(d: int): (c: char)
    requires 0 <= d < 10
    ensures IsDigit(c)
  {
    ['0', '1', '2', '3', '4', '5', '6', '7', '8', '9'][d]
  }

  function DigitValue(c: char): int
    requires IsDigit(c)
  {
    c as int - '0' as int
  }

  /** The decimal digits of a natural number, most significant first,
      with no leading zero. */
  function NatToString(n: nat): (s: string)
    ensures |s| > 0 && AllDigits(s)
    ensures |s| > 1 ==> s[0] != '0'
    decreases n
  {
    if n < 10 then [DigitChar(n)] else NatToString(n / 10) + [DigitChar(n % 10)]
  }

  /** How `${n}` renders an integer: a minus sign before the digits of a
      negative number. */
  function IntToString(n: int): string {
    if n < 0 then "-" + NatToString(-n) else NatToString(n)
  }

  /** The value of a non-empty digit string read in base 10. */
  function DecimalValue(s: string): nat
    requires AllDigits(s)
    decreases |s|
  {
    if |s| == 0 then 0 else 10 * DecimalValue(s[..|s| - 1]) + DigitValue(s[|s| - 1])
  }

  lemma {:induction false} DecimalRoundTrip(n: nat)
    ensures DecimalValue(NatToString(n)) == n
    decreases n
  {
    var s := NatToString(n);
    if n >= 10 {
      DecimalRoundTrip(n / 10);
      assert s[..|s| - 1] == NatToString(n / 10);
      assert DigitValue(s[|s| - 1]) == n % 10;
    }
  }

  /** Distinct numbers render as distinct strings. */
  lemma NatToStringInjective(m: nat, n: nat)
    requires NatToString(m) == NatToString(n)
    ensures m == n
  {
    DecimalRoundTrip(m);
    DecimalRoundTrip(n);
  }

  lemma IntToStringInjective(m: int, n: int)
    requires IntToString(m) == IntToString(n)
    ensures m == n
  {
    if m < 0 && n < 0 {
      assert NatToString(-m) == IntToString(m)[1..];
      NatToStringInjective(-m, -n);
    } else if m >= 0 && n >= 0 {
      NatToStringInjective(m, n);
    }
  }

  // ---------------------------------------------------------------------
  // Catalog lookups

  /** `s.find(x => idOf(x) === id)`: an entry carrying that id, or none when
      no entry carries it. */
  function FindById<T>(s: seq<T>, idOf: T -> string, id: string): (r: Option<T>)
    ensures r.Some? ==> r.value in s && idOf(r.value) == id
    ensures r.None? <==> forall i :: 0 <= i < |s| ==> idOf(s[i]) != id
  {
    if |s| == 0 then None
    else if idOf(s[0]) == id then Some(s[0])
    else FindById(s[1..], idOf, id)
  }

  /** The entry found is the first one carrying the id: every entry before
      it carries another id. */
  lemma {:induction false} FindByIdFirst<T>(s: seq<T>, idOf: T -> string, id: string, k: int)
    requires 0 <= k < |s| && idOf(s[k]) == id
    requires forall j :: 0 <= j < k ==> idOf(s[j]) != id
    ensures FindById(s, idOf, id) == Some(s[k])
    decreases k
  {
    if k > 0 {
      FindByIdFirst(s[1..], idOf, id, k - 1);
    }
  }

  // ---------------------------------------------------------------------
  // Searching strings

  /** The last dot among the first `k` characters. */
  function LastDot(name: string, k: nat): (r: Option<nat>)
    requires k <= |name|
    ensures r.Some? ==> r.value < k && name[r.value] == '.' && forall j :: r.value < j < k ==> name[j] != '.'
    ensures r.None? ==> forall j :: 0 <= j < k ==> name[j] != '.'
  {
    if k == 0 then None
    else if name[k - 1] == '.' then Some(k - 1)
    else LastDot(name, k - 1)
  }
}
